=== FILE: README.md ===
# Quote sync core

A model of the reconciliation core of the Dynamic Quote Generator, the quote
app in `dom-manipulation/script.js`. The app keeps a local list of quotes. Each
quote has an opaque id, a text, a category and an `updatedAt` timestamp in
milliseconds. The app synchronises this list with a mock server. The server
wins on any field difference. Every local record the sync overwrites goes into
a ledger of conflict backups, and the user can restore or dismiss each backup.

The model covers:

- `toMap` and the insertion-ordered JavaScript `Map`s the app builds from its
  arrays (module `IdMap`). A map is a `seq<Quote>` with distinct ids. Setting a
  key replaces its record in place, or appends the record when the key is new.
  This is the ordering that `Array.from(map.values())` exposes.
- `MockServer.upsertMany` and the server's demo seed (module `Server`).
- `addConflictBackup`, the ledger count per id, and `dismissConflict` (module
  `Ledger`).
- The merge, push and count part of `syncNow` (module `Sync`).
- `restoreLocalVersion` (module `Restore`).
- The clean-and-merge body of `importFromJsonFile` (module `Importer`).
  ECMAScript `String.prototype.trim` is in module `JsText`. The
  export-then-import round trip is in module `ImportRoundTrip`.
- The normalisation in `loadQuotes` (module `Load`).

`Date.now()` is a parameter `now`, read once per operation. The random id generator is a parameter
`gen: nat -> NonEmptyString`, and the element at position `i` of a list
receives `gen(i)`. Stored state (the local list, the server array and the
ledger) is passed in and out as plain values.

## Model

| member | source | states |
|---|---|---|
| Quotes.DiffersIffUnequal | dom-manipulation/script.js:295 | For two records with the same id, `contentDiffers` (text, category or `updatedAt` differ) holds exactly when the records are unequal. |
| IdMap.Get | dom-manipulation/script.js:290 | `map.get` finds a record exactly when the id is a key, and the record it finds is in the map under that id. |
| IdMap.Put | dom-manipulation/script.js:275 | `map.set`: the key then holds the record and every other key keeps its record. An existing key keeps its position. A new key is appended after the old keys, which stay as they were. |
| IdMap.PutAll | dom-manipulation/script.js:108-110 | After the set loop, every id among the items holds the last item with that id, and every other key keeps its record. Ids stay distinct. |
| IdMap.ToMap | dom-manipulation/script.js:273-277 | `toMap` has exactly the ids of the array, each once, and each holds the last array element with that id. |
| IdMap.ToMapOrder | dom-manipulation/script.js:273-277 | The keys of `toMap` come in the order in which their ids first appear in the array. |
| Server.Seed | dom-manipulation/script.js:97-100 | The demo server data: two quotes with distinct ids, non-empty text and category, stamped before the time of the read. |
| Server.UpsertMany | dom-manipulation/script.js:105-114 | After `upsertMany`, each pushed id holds its last pushed record and every other server id holds its last server record. The key set is the union of the two id sets. |
| Server.UpsertManyOrder | dom-manipulation/script.js:105-113 | Server ids not pushed keep their position and record. Pushed ids already on the server keep their position. New ids are appended in order of first appearance among the pushed items. |
| Server.UpsertManyConcat | dom-manipulation/script.js:105-113 | Two upserts in a row equal one upsert of both lists. The result is `toMap` of the old array followed by all pushed items. |
| Ledger.AddConflictBackup | dom-manipulation/script.js:78-81 | The ledger is append-only: the old entries are untouched and one entry is added. It holds the overwritten local record (whose id is the entry's id) and the server record, stamped `now`. The count for that id grows by one and every other count stays the same. |
| Ledger.FindFirst | dom-manipulation/script.js:404 | `findIndex` returns the index of the first entry with the id, or nothing when no entry has it. |
| Ledger.RemoveAt | dom-manipulation/script.js:406 | `splice(i, 1)` leaves one entry fewer: entries before `i` stay where they were and entries after it move down by one. |
| Ledger.Dismiss | dom-manipulation/script.js:402-407 | `dismissConflict` is a no-op when `findIndex` finds no entry for the id. Otherwise it removes exactly one entry, one of that id's: that id's count drops by one, and every other id's count is unchanged. |
| Ledger.DismissRemovesFirstOnly | dom-manipulation/script.js:402-407 | With no entry for the id, dismissing changes nothing. Otherwise it splices out exactly the first entry for the id. Later duplicates and all other ids keep their counts. |
| Ledger.RemoveFirstCounts | dom-manipulation/script.js:404-406 | Splicing out the first match lowers that id's count by one and leaves every other count alone. The removed entry plus the rest is the old ledger, as a multiset. |
| Ledger.CountPositive | dom-manipulation/script.js:404-405 | An id has ledger entries exactly when `findIndex` finds one. |
| Sync.ApplyOne | dom-manipulation/script.js:290-303 | One iteration of the apply loop leaves the local map holding the server record under its id, whichever branch runs. The ledger only grows. |
| Sync.ApplyRemote | dom-manipulation/script.js:289-304 | The whole apply loop sets every server record into the local map, so its result is the local map with the server map set into it. The ledger only grows. |
| Sync.ApplyCounts | dom-manipulation/script.js:289-304 | Measured against the local map before the loop: `addedFromServer` counts server ids that were not local. The ledger gains exactly the conflict backups. `updatedFromServer` and `conflicts` both equal their number. |
| Sync.ConflictBackupsExact | dom-manipulation/script.js:295-300 | The backups one sync logs are exactly one per id that both maps hold with different records. Each holds the old local record and the server record, stamped `now`. |
| Sync.SyncNow | dom-manipulation/script.js:279-316 | A sync only appends to the ledger, and it reports equal `updatedFromServer` and `conflicts`. |
| Sync.SyncShape | dom-manipulation/script.js:279-316 | The new local list is the local map with the server map set into it. The ledger gains the conflict backups. The server is sent exactly the local-only records, and only when there are some. |
| Sync.PushIsLocalOnly | dom-manipulation/script.js:307-310 | The push list, taken from the merged map, is exactly the local-only records in local order. |
| Sync.SyncRemoteReachesLocal | dom-manipulation/script.js:289-316 | After a sync, every server id is in the local list and holds exactly the server's record. `addedFromServer` counts server ids that were not local, and their records are appended after the old local keys. |
| Sync.SyncServerWins | dom-manipulation/script.js:295-302 | For an id both sides hold with different records, the local list ends up with the server record, whatever the timestamps say. Exactly one backup of the old local record is logged for it. Identical records log nothing, and both counters count the conflicting ids. |
| Sync.SyncKeepsAndPushesLocalOnly | dom-manipulation/script.js:307-316 | Local-only ids keep their record and position in the local list. They are pushed, so the server then holds them with the same record. |
| Sync.SyncConverges | dom-manipulation/script.js:289-316 | After a sync, each id holds the same record locally and on the server, or is absent from both. |
| Sync.SyncIdempotent | dom-manipulation/script.js:289-316 | A second sync against the server the first one left changes nothing: no new backups, all three counters zero, and the same local list and server array. |
| Sync.SyncAgreedIsNoOp | dom-manipulation/script.js:289-316 | When the local list has distinct ids and both sides already hold the same record for every id, a sync changes nothing and counts nothing. |
| Sync.SyncFromEmptyLocal | dom-manipulation/script.js:289-316 | From an empty local list, a sync copies the server map in, counts every server id as added, logs nothing and pushes nothing. |
| Sync.SyncFirstRunAgainstSeed | dom-manipulation/script.js:279-316 | A first sync against the freshly seeded server adds the two demo quotes, with no updates and no conflicts. |
| Restore.Restore | dom-manipulation/script.js:373-390 | With no backup for the id, restoring is a no-op. Otherwise exactly one ledger entry is removed. |
| Restore.RestoreWrites | dom-manipulation/script.js:373-390 | Restoring writes the first backup's local version, stamped `now`, under the id both locally and on the server. Every other id is left alone on both sides. Exactly the first backup for the id is removed. |
| Restore.RestoreThenSyncKeepsRestored | dom-manipulation/script.js:378-386 | A sync right after a restore, with the server unchanged, keeps the restored record and logs no new backup for it. |
| Restore.RestorePicksFirstLogged | dom-manipulation/script.js:374-376 | When one id has two backups, restoring brings back the older, first-logged version and leaves the newer backup in the ledger. |
| Restore.RestoreRemovesLikeDismiss | dom-manipulation/script.js:389 | Restore removes the same ledger entry that dismiss removes. |
| JsText.Trim | dom-manipulation/script.js:242-243 | `trim` returns a slice of its input with no leading or trailing white space, and only white space lies outside the slice. The result is empty exactly when the input is all white space. |
| JsText.OrElse | dom-manipulation/script.js:63-65 | `v || fallback` on a string field: a present, non-empty string is kept, and a missing or empty one gives the fallback. |
| JsText.TrimIdempotent | dom-manipulation/script.js:242-243 | Trimming twice is the same as trimming once. |
| Importer.CleanItem | dom-manipulation/script.js:238-245 | Non-objects are dropped, and so is an item whose trimmed text or category is empty. A kept item's text and category are the trimmed input values, with a missing category read as "General". It has a truthy id (its own, or a generated one), and a non-numeric `updatedAt` becomes `now`. |
| Importer.CleanAll | dom-manipulation/script.js:238-246 | The cleaned list holds one quote per element that `CleanItem` keeps, in input order: there is an increasing list of input positions, covering every kept element, such that entry `k` is `CleanItem`'s result for the element at position `k` of that list. Every element that `CleanItem` keeps is in the cleaned list, and everything in the cleaned list is `CleanItem`'s result for some element. Non-objects and items that are empty after trimming are dropped. The list is never longer than the input and holds only clean quotes. |
| Importer.Offer | dom-manipulation/script.js:250-253 | One merge step takes the imported record unless the local map holds a strictly newer one under that id. Other ids are untouched. |
| Importer.Merge | dom-manipulation/script.js:249-254 | The merged map has the same keys, in the same order, as setting every imported record. Ids the import does not mention keep their local record. |
| Importer.MergeKeepsNewest | dom-manipulation/script.js:249-253 | For an imported id, the merged map holds the newest of the local record and the imported records with that id. On a tie the last of them wins, so an import beats an equally new local record. |
| Importer.MergeKeyOrder | dom-manipulation/script.js:249-254 | Local keys keep their positions, and local keys the import does not mention keep their records. Unseen ids are appended in order of first appearance in the import. |
| Importer.ImportQuotes | dom-manipulation/script.js:238-254 | Nothing is imported exactly when no item survives cleaning. Otherwise the reported count is the number of cleaned items, and the key set is the union of the local and imported ids. Each imported id holds the newest of its local and imported records, and on a tie the last one wins. Every other id keeps its local record. |
| ImportRoundTrip.CleanOfClean | dom-manipulation/script.js:238-246 | Cleaning an already clean quote, written out with every field, gives it back unchanged. |
| ImportRoundTrip.CleanAllOfExport | dom-manipulation/script.js:238-246 | Cleaning the exported form of a list of clean quotes gives back the same list. |
| ImportRoundTrip.MergePresent | dom-manipulation/script.js:249-253 | Merging records the map already holds changes nothing. |
| ImportRoundTrip.ImportOwnExport | dom-manipulation/script.js:238-254 | Importing the exported file of a list of clean quotes with distinct ids gives back the same list and reports every quote. |
| ImportRoundTrip.ImportTieGoesToImport | dom-manipulation/script.js:252 | An imported record exactly as new as the local one replaces it. |
| ImportRoundTrip.ImportOlderIgnored | dom-manipulation/script.js:252 | An imported record older than the local one is ignored. |
| Load.Save | dom-manipulation/script.js:48 | `saveQuotes` writes every field of a quote as is. A quote with an id and a category normalises back to itself from its saved form, whatever id and time a later load would supply. |
| Load.SaveAll | dom-manipulation/script.js:48 | The saved array holds one stored item per quote, in order, each the saved form of that quote. |
| Load.Normalize | dom-manipulation/script.js:62-67 | A falsy id gets a generated id. A missing or empty category becomes "General". A non-numeric `updatedAt` becomes `now`. The text is kept. |
| Load.Seeds | dom-manipulation/script.js:54-60 | Three built-in quotes stamped `now`. Seed `i` takes the generated id `gen(i)`, and the categories are "Motivation", "Inspiration" and "Action". |
| Load.LoadQuotes | dom-manipulation/script.js:49-68 | An empty stored list loads as the three seeds. Otherwise each stored item loads as its normalised form: the text is kept, and a falsy id gets a generated id. A missing category becomes "General", and a missing timestamp becomes `now`. |
| Load.LoadKeepsNormalItems | dom-manipulation/script.js:62-67 | A stored item that already has an id, a category and a numeric timestamp loads unchanged. |
| Load.LoadIdempotent | dom-manipulation/script.js:49-68 | Loading what a load saved gives the same list, at any later time and with any generated ids. |

## Left out

- The DOM and UI code is not modelled. This covers banners, the category filter, random quote display, the conflicts panel and the `toggleConflicts` button, and the `init` wiring. It only renders results.
- `localStorage`, `sessionStorage`, JSON parsing and stringifying, and their `try`/`catch` fallbacks are not modelled. Stored values are passed in and returned as plain values. `shallowClone` and the object spreads copy records, which changes nothing in a value model.
- For `loadQuotes`, a missing key, unparsable text, `null` and a non-array all reach the seeds exactly as an empty list does. The model takes the stored list as an argument, and the caller passes the empty list for all of these.
- An import file that does not parse, or is not an array, ends in an alert, and the model does not cover it. `ImportQuotes` starts from the parsed array.
- Non-string ids, texts and categories are not modelled: field values are strings or absent. `String(...)` applied to numbers and objects is therefore left out of the import.
- `typeof x === "number"` also admits fractional values, `NaN` and the infinities. Timestamps are modelled as integers.
- Load normalisation covers only object items with a string text. Items without a text load with an `undefined` text, which the model cannot represent. A `null` element makes the code throw. A number or string element loads as a quote with a generated id, an `undefined` text, "General" and `now`. These cases are left out.
- `FileReader`, `Blob`, object URLs and the export download are file I/O, so they are left out. The exported array is modelled only as `ImportRoundTrip.Export`.
- `seedFromJSONPlaceholder` is not modelled, because it is network I/O.
- The `setInterval` periodic sync and the cross-tab `storage` listener concern timing and concurrency, which the model does not cover.
- `Math.random` is abstracted. `generateId` becomes the parameter `gen`, which is assumed to yield non-empty ids. `simulateRemoteUpdate` is a random demo action and is left out.
- `MockServer.getAll`'s lazy self-seeding is modelled only as the initial server array, `Server.Seed`.
- `LAST_SYNC_KEY`, the `silent` flag and the banner message belong to the UI side of `syncNow` and are not modelled. The three counters the banner reports are modelled, as the `added`, `updated` and `conflicts` of `SyncOutcome`.
- The code never fails a server read or write, so the model has no failure path for them.
- `addQuote`, the category filter and the "dismiss all" action are user commands outside the sync core.
- Restore and dismiss act on the FIRST backup logged for the id, because the code uses `findIndex` (script.js:375, 404). The conflicts panel lists backups newest first (script.js:346-349), so when one id has several backups, the Restore and Dismiss buttons on the newest row still act on the oldest entry. The model follows the code, and `Restore.RestorePicksFirstLogged` shows the difference.
- Restore.Restore: its own contract states only the no-op case and the ledger length. What it writes is stated in `Restore.RestoreWrites`.
- Sync.SyncNow: its own contract states only the append-only ledger and the equal counters. The full behaviour is in `Sync.SyncShape` and the lemmas after it.
- Sync.SyncServerWins and Sync.ConflictBackupsExact state that every backup of one sync is stamped with the same `now`. This holds only because the model reads the clock once per operation. The code calls `nowTs()` again for each backup (script.js:80), for each of the two server seed quotes (98-99), for each local seed quote (56-58), for each normalised item (66), for each imported item (244) and inside `generateId` (34). Stamps taken within one operation may therefore differ by a few milliseconds. The server seed, the local seeds, the normalised items and the imported items of one operation each share one `now` in the model for the same reason.

=== FILE: idmap.dfy ===
/**
 An insertion-ordered map from quote id to quote, the stand-in for the
 JavaScript `Map` objects the app builds with `toMap`. A map is a sequence of
 quotes whose ids are pairwise distinct; its key order is the sequence order.
 Setting an existing key replaces the entry in place, setting a new key
 appends it, exactly as `Map.prototype.set` does.
 */
module IdMap {
  import opened Quotes

  /** The keys of a map, in insertion order. */
  function Ids(m: seq<Quote>): seq<string>
  {
    seq(|m|, i requires 0 <= i < |m| => m[i].id)
  }

  predicate UniqueIds(m: seq<Quote>)
  {
    forall i, j :: 0 <= i < j < |m| ==> m[i].id != m[j].id
  }

  /** The entries of `items` whose id is not one of `keys`, in their order. */
  function Outside(items: seq<Quote>, keys: seq<string>): (r: seq<Quote>)
    ensures |r| <= |items|
    ensures forall q :: q in r <==> q in items && q.id !in keys
    decreases |items|
  {
    if |items| == 0 then []
    else
      var p := Outside(items[..|items| - 1], keys);
      var q := items[|items| - 1];
      assert items == items[..|items| - 1] + [q];
      if q.id in keys then p else p + [q]
  }

  /** Position of the first entry with the given id. */
  function Find(m: seq<Quote>, id: string): (r: Option<nat>)
    ensures r.Some? ==> r.value < |m| && m[r.value].id == id
    ensures r.Some? ==> forall j :: 0 <= j < r.value ==> m[j].id != id
    ensures r.None? <==> id !in Ids(m)
  {
    if |m| == 0 then None
    else
      assert Ids(m) == [m[0].id] + Ids(m[1..]);
      if m[0].id == id then Some(0)
      else
        match Find(m[1..], id)
        case None => None
        case Some(k) => Some(k + 1)
  }

  /** `Map.prototype.get`: the entry stored under `id`, if any. */
  function Get(m: seq<Quote>, id: string): (r: Option<Quote>)
    ensures r.Some? <==> id in Ids(m)
    ensures r.Some? ==> r.value in m && r.value.id == id
  {
    match Find(m, id)
    case None => None
    case Some(i) => InIds(m, i); Some(m[i])
  }

  lemma InIds(m: seq<Quote>, i: nat)
    requires i < |m|
    ensures m[i].id in Ids(m) && Ids(m)[i] == m[i].id && m[i] in m
  {
  }

  /** An id that no entry carries is not a key. */
  lemma NotInIds(m: seq<Quote>, id: string)
    requires forall i :: 0 <= i < |m| ==> m[i].id != id
    ensures id !in Ids(m)
  {
  }

  lemma GetAt(m: seq<Quote>, i: nat)
    requires UniqueIds(m) && i < |m|
    ensures Get(m, m[i].id) == Some(m[i])
  {
    InIds(m, i);
  }

  lemma GetIn(m: seq<Quote>, q: Quote)
    requires UniqueIds(m) && q in m
    ensures Get(m, q.id) == Some(q)
  {
    var i :| 0 <= i < |m| && m[i] == q;
    GetAt(m, i);
  }

  /** `Map.prototype.set`: replace the entry in place, or append a new key. */
  function Put(m: seq<Quote>, q: Quote): (r: seq<Quote>)
    requires UniqueIds(m)
    ensures UniqueIds(r)
    ensures Get(r, q.id) == Some(q)
    ensures forall id :: id != q.id ==> Get(r, id) == Get(m, id)
    ensures q.id in Ids(m) ==> Ids(r) == Ids(m)
    ensures q.id in Ids(m) ==> forall i :: 0 <= i < |m| && m[i].id != q.id ==> r[i] == m[i]
    ensures q.id !in Ids(m) ==> Ids(r) == Ids(m) + [q.id] && r[..|m|] == m
  {
    if q.id in Ids(m) then
      var r := seq(|m|, i requires 0 <= i < |m| => if m[i].id == q.id then q else m[i]);
      assert Ids(r) == Ids(m);
      PutFrame(m, q, r);
      r
    else
      var r := m + [q];
      assert Ids(r) == Ids(m) + [q.id];
      forall i | 0 <= i < |m| ensures m[i].id != q.id { InIds(m, i); }
      assert r[..|m|] == m;
      assert r[|m|] == q;
      GetAt(r, |m|);
      PutFrame(m, q, r);
      r
  }

  /** Entries other than `q.id` are untouched by a set that keeps them in place. */
  lemma PutFrame(m: seq<Quote>, q: Quote, r: seq<Quote>)
    requires UniqueIds(m) && UniqueIds(r)
    requires |m| <= |r| && forall i :: 0 <= i < |m| ==> r[i].id == m[i].id
    requires forall i :: 0 <= i < |m| && m[i].id != q.id ==> r[i] == m[i]
    requires forall i :: |m| <= i < |r| ==> r[i].id == q.id
    ensures forall id :: id != q.id ==> Get(r, id) == Get(m, id)
  {
    forall id | id != q.id
      ensures Get(r, id) == Get(m, id)
    {
      if id in Ids(m) {
        var i := Find(m, id).value;
        GetAt(m, i);
        GetAt(r, i);
      } else {
        forall i | 0 <= i < |r| ensures r[i].id != id {
          if i < |m| { InIds(m, i); }
        }
        NotInIds(r, id);
      }
    }
  }

  /** The last entry of `items` with the given id: the one a run of sets leaves behind. */
  function Last(items: seq<Quote>, id: string): (r: Option<Quote>)
    ensures r.Some? <==> id in Ids(items)
    ensures r.Some? ==> r.value in items && r.value.id == id
    decreases |items|
  {
    if |items| == 0 then None
    else
      var p := items[..|items| - 1];
      var q := items[|items| - 1];
      assert items == p + [q];
      assert Ids(items) == Ids(p) + [q.id];
      if q.id == id then Some(q) else Last(p, id)
  }

  /** Set every entry of `items` into `m`, in order. */
  function PutAll(m: seq<Quote>, items: seq<Quote>): (r: seq<Quote>)
    requires UniqueIds(m)
    ensures UniqueIds(r)
    ensures forall id :: Get(r, id) == if id in Ids(items) then Last(items, id) else Get(m, id)
    decreases |items|
  {
    if |items| == 0 then m
    else
      var p := items[..|items| - 1];
      var q := items[|items| - 1];
      assert items == p + [q];
      assert Ids(items) == Ids(p) + [q.id];
      Put(PutAll(m, p), q)
  }

  /** `toMap`: the map holding, for every id of `arr`, its last entry, keyed in
      order of first appearance. */
  function ToMap(arr: seq<Quote>): (r: seq<Quote>)
    ensures UniqueIds(r)
    ensures forall id :: Get(r, id) == Last(arr, id)
    ensures forall id :: id in Ids(r) <==> id in Ids(arr)
  {
    PutAll([], arr)
  }

  lemma IdsAppend(p: seq<Quote>, q: Quote)
    ensures Ids(p + [q]) == Ids(p) + [q.id]
  {
  }

  lemma IdsConcat(a: seq<Quote>, b: seq<Quote>)
    ensures Ids(a + b) == Ids(a) + Ids(b)
  {
  }

  lemma UniqueParts(a: seq<Quote>, b: seq<Quote>)
    requires UniqueIds(a + b)
    ensures UniqueIds(a) && UniqueIds(b)
    ensures forall id :: id in Ids(a) ==> id !in Ids(b)
  {
    forall id | id in Ids(a)
      ensures id !in Ids(b)
    {
      var i :| 0 <= i < |a| && Ids(a)[i] == id;
      forall j | 0 <= j < |b|
        ensures b[j].id != id
      {
        assert (a + b)[i] == a[i];
        assert (a + b)[|a| + j] == b[j];
      }
      NotInIds(b, id);
    }
    forall i, j | 0 <= i < j < |a|
      ensures a[i].id != a[j].id
    {
      assert (a + b)[i] == a[i];
      assert (a + b)[j] == a[j];
    }
    forall i, j | 0 <= i < j < |b|
      ensures b[i].id != b[j].id
    {
      assert (a + b)[|a| + i] == b[i];
      assert (a + b)[|a| + j] == b[j];
    }
  }

  /** A map that already holds a record is unchanged by setting it again. */
  lemma PutSame(m: seq<Quote>, q: Quote)
    requires UniqueIds(m) && Get(m, q.id) == Some(q)
    ensures Put(m, q) == m
  {
    var r := Put(m, q);
    forall i | 0 <= i < |m|
      ensures r[i] == m[i]
    {
      if m[i].id == q.id {
        GetAt(m, i);
        GetAt(r, i);
        assert Ids(r)[i] == Ids(m)[i];
      }
    }
  }

  /** Setting a key that lives in the first part of a map touches only that part. */
  lemma PutInLeft(a: seq<Quote>, b: seq<Quote>, q: Quote)
    requires UniqueIds(a + b) && q.id in Ids(a)
    ensures UniqueIds(a) && Put(a + b, q) == Put(a, q) + b
  {
    UniqueParts(a, b);
    IdsConcat(a, b);
    var r := Put(a + b, q);
    var s := Put(a, q) + b;
    assert |r| == |s|;
    forall i | 0 <= i < |r|
      ensures r[i] == s[i]
    {
      if i < |a| {
        assert Ids(r)[i] == Ids(a + b)[i];
        if a[i].id == q.id {
          GetAt(r, i);
          assert Ids(Put(a, q))[i] == Ids(a)[i];
          GetAt(Put(a, q), i);
        } else {
          assert (a + b)[i] == a[i];
          assert Ids(Put(a, q))[i] == Ids(a)[i];
        }
      } else {
        assert (a + b)[i] == b[i - |a|];
        InIds(b, i - |a|);
        assert r[i] == (a + b)[i];
      }
    }
  }

  /** Setting a key absent from the first part of a map leaves that part alone. */
  lemma PutInRight(a: seq<Quote>, b: seq<Quote>, q: Quote)
    requires UniqueIds(a + b) && q.id !in Ids(a)
    ensures UniqueIds(b) && Put(a + b, q) == a + Put(b, q)
  {
    UniqueParts(a, b);
    IdsConcat(a, b);
    var r := Put(a + b, q);
    var s := a + Put(b, q);
    if q.id in Ids(b) {
      assert |r| == |s|;
      forall i | 0 <= i < |r|
        ensures r[i] == s[i]
      {
        if i < |a| {
          assert (a + b)[i] == a[i];
          InIds(a, i);
        } else {
          var k := i - |a|;
          assert (a + b)[i] == b[k];
          assert Ids(Put(b, q))[k] == Ids(b)[k];
          if b[k].id == q.id {
            GetAt(r, i);
            GetAt(Put(b, q), k);
            assert Ids(r)[i] == Ids(a + b)[i];
          }
        }
      }
    } else {
      assert r == (a + b) + [q];
    }
  }

  /** Setting entries into a map never moves an existing key: the old keys
      stay first, in their order, and keep their record unless `items`
      mentions them. */
  lemma {:induction false} PutAllKeepsKeys(m: seq<Quote>, items: seq<Quote>)
    requires UniqueIds(m)
    ensures var r := PutAll(m, items);
      && |m| <= |r|
      && (forall i :: 0 <= i < |m| ==> r[i].id == m[i].id)
      && (forall i :: 0 <= i < |m| && m[i].id !in Ids(items) ==> r[i] == m[i])
    decreases |items|
  {
    var r := PutAll(m, items);
    if |items| > 0 {
      var p := items[..|items| - 1];
      var q := items[|items| - 1];
      assert items == p + [q];
      PutAllKeepsKeys(m, p);
      var prev := PutAll(m, p);
      forall i | 0 <= i < |m|
        ensures r[i].id == m[i].id
      {
        InIds(prev, i);
        InIds(r, i);
      }
    }
    forall i | 0 <= i < |m| && m[i].id !in Ids(items)
      ensures r[i] == m[i]
    {
      GetAt(m, i);
      GetAt(r, i);
    }
  }

  /** The entries for keys new to `m` follow the old keys, as the map built
      from the new-key items alone: in order of first appearance in `items`,
      each holding its last entry there. */
  lemma {:induction false} PutAllAppendsNew(m: seq<Quote>, items: seq<Quote>)
    requires UniqueIds(m)
    ensures |m| <= |PutAll(m, items)|
    ensures PutAll(m, items)[|m|..] == ToMap(Outside(items, Ids(m)))
    decreases |items|
  {
    PutAllKeepsKeys(m, items);
    var r := PutAll(m, items);
    if |items| == 0 {
      assert r[|m|..] == [];
    } else {
      var p := items[..|items| - 1];
      var q := items[|items| - 1];
      assert items == p + [q];
      PutAllAppendsNew(m, p);
      PutAllKeepsKeys(m, p);
      var prev := PutAll(m, p);
      assert r == Put(prev, q);
      var o := Outside(p, Ids(m));
      assert prev[|m|..] == ToMap(o);
      PutTail(prev, |m|, q);
      if q.id in Ids(m) {
        assert q.id in Ids(prev[..|m|]) by { IdsPrefix(prev, m); }
        assert Outside(items, Ids(m)) == o;
      } else {
        assert q.id !in Ids(prev[..|m|]) by { IdsPrefix(prev, m); }
        assert Outside(items, Ids(m)) == o + [q];
        ToMapAppend(o, q);
      }
    }
  }

  lemma IdsPrefix(r: seq<Quote>, m: seq<Quote>)
    requires |m| <= |r| && forall i :: 0 <= i < |m| ==> r[i].id == m[i].id
    ensures Ids(r[..|m|]) == Ids(m)
  {
  }

  /** What a set does to the part of a map after its first `k` entries. */
  lemma PutTail(m: seq<Quote>, k: nat, q: Quote)
    requires UniqueIds(m) && k <= |m|
    ensures k <= |Put(m, q)|
    ensures q.id in Ids(m[..k]) ==> Put(m, q)[k..] == m[k..]
    ensures q.id !in Ids(m[..k]) ==> UniqueIds(m[k..]) && Put(m, q)[k..] == Put(m[k..], q)
  {
    var a, b := m[..k], m[k..];
    assert m == a + b;
    if q.id in Ids(a) {
      PutInLeft(a, b, q);
    } else {
      PutInRight(a, b, q);
    }
  }

  lemma ToMapAppend(o: seq<Quote>, q: Quote)
    ensures ToMap(o + [q]) == Put(ToMap(o), q)
  {
    assert (o + [q])[..|o + [q]| - 1] == o;
  }

  /** A map built from entries with distinct ids is those entries, in order. */
  lemma {:induction false} ToMapOfUnique(arr: seq<Quote>)
    requires UniqueIds(arr)
    ensures ToMap(arr) == arr
    decreases |arr|
  {
    if |arr| > 0 {
      var p := arr[..|arr| - 1];
      var q := arr[|arr| - 1];
      assert arr == p + [q];
      UniqueParts(p, [q]);
      ToMapOfUnique(p);
      assert Ids([q]) == [q.id];
      assert q.id !in Ids(p);
    }
  }

  /** Setting records that the map already holds changes nothing. */
  lemma {:induction false} PutAllPresent(m: seq<Quote>, items: seq<Quote>)
    requires UniqueIds(m)
    requires forall q :: q in items ==> Get(m, q.id) == Some(q)
    ensures PutAll(m, items) == m
    decreases |items|
  {
    if |items| > 0 {
      var p := items[..|items| - 1];
      var q := items[|items| - 1];
      assert items == p + [q];
      PutAllPresent(m, p);
      PutSame(m, q);
    }
  }

  /** Setting `a` then `b` is setting `a + b`. */
  lemma {:induction false} PutAllConcat(m: seq<Quote>, a: seq<Quote>, b: seq<Quote>)
    requires UniqueIds(m)
    ensures PutAll(PutAll(m, a), b) == PutAll(m, a + b)
    decreases |b|
  {
    if |b| == 0 {
      assert a + b == a;
    } else {
      var p := b[..|b| - 1];
      var q := b[|b| - 1];
      assert b == p + [q];
      assert a + b == (a + p) + [q];
      assert (a + b)[..|a + b| - 1] == a + p;
      PutAllConcat(m, a, p);
    }
  }

  /** `x` first appears in `arr` strictly before `y` does. */
  predicate FirstSeenBefore(arr: seq<Quote>, x: string, y: string)
  {
    var a, b := Find(arr, x), Find(arr, y);
    a.Some? && b.Some? && a.value < b.value
  }

  /** `Find` returns the first position carrying the id. */
  lemma FindIs(m: seq<Quote>, id: string, k: nat)
    requires k < |m| && m[k].id == id
    requires forall j :: 0 <= j < k ==> m[j].id != id
    ensures Find(m, id) == Some(k)
  {
    InIds(m, k);
  }

  lemma FindAppend(p: seq<Quote>, q: Quote, id: string)
    ensures id in Ids(p) ==> Find(p + [q], id) == Find(p, id)
    ensures id !in Ids(p) && id == q.id ==> Find(p + [q], id) == Some(|p|)
  {
    var a := p + [q];
    assert forall j :: 0 <= j < |p| ==> a[j] == p[j];
    if id in Ids(p) {
      var k := Find(p, id).value;
      FindIs(a, id, k);
    } else if id == q.id {
      forall j | 0 <= j < |p|
        ensures a[j].id != id
      {
        InIds(p, j);
      }
      FindIs(a, id, |p|);
    }
  }

  /** `toMap` keeps the keys in the order in which they first appear. */
  lemma {:induction false} ToMapOrder(arr: seq<Quote>)
    ensures forall i, j :: 0 <= i < j < |ToMap(arr)| ==> FirstSeenBefore(arr, ToMap(arr)[i].id, ToMap(arr)[j].id)
    decreases |arr|
  {
    if |arr| > 0 {
      var p := arr[..|arr| - 1];
      var q := arr[|arr| - 1];
      assert arr == p + [q];
      ToMapOrder(p);
      var t := ToMap(p);
      var r := ToMap(arr);
      assert r == Put(t, q);
      forall i, j | 0 <= i < j < |r|
        ensures FirstSeenBefore(arr, r[i].id, r[j].id)
      {
        if q.id in Ids(t) {
          InIds(r, i);
          InIds(r, j);
          InIds(t, i);
          InIds(t, j);
          FindAppend(p, q, r[i].id);
          FindAppend(p, q, r[j].id);
        } else {
          assert r[..|t|] == t;
          InIds(t, i);
          FindAppend(p, q, r[i].id);
          if j < |t| {
            InIds(t, j);
            FindAppend(p, q, r[j].id);
          } else {
            InIds(r, j);
            FindAppend(p, q, r[j].id);
          }
        }
      }
    }
  }

  /** `Outside` only asks whether an id is among the keys. */
  lemma {:induction false} OutsideSameKeys(items: seq<Quote>, k1: seq<string>, k2: seq<string>)
    requires forall id :: id in k1 <==> id in k2
    ensures Outside(items, k1) == Outside(items, k2)
    decreases |items|
  {
    if |items| > 0 {
      OutsideSameKeys(items[..|items| - 1], k1, k2);
    }
  }

  lemma {:induction false} OutsideConcat(a: seq<Quote>, b: seq<Quote>, keys: seq<string>)
    ensures Outside(a + b, keys) == Outside(a, keys) + Outside(b, keys)
    decreases |b|
  {
    if |b| == 0 {
      assert a + b == a;
    } else {
      var p := b[..|b| - 1];
      assert a + b == (a + p) + [b[|b| - 1]];
      assert (a + b)[..|a + b| - 1] == a + p;
      OutsideConcat(a, p, keys);
    }
  }

  /** Nothing is outside the keys when every entry's id is a key. */
  lemma {:induction false} OutsideNone(a: seq<Quote>, keys: seq<string>)
    requires forall i :: 0 <= i < |a| ==> a[i].id in keys
    ensures Outside(a, keys) == []
    decreases |a|
  {
    if |a| > 0 {
      OutsideNone(a[..|a| - 1], keys);
    }
  }

  /** Two lists with the same ids position by position, agreeing on every
      entry whose id is not a key, have the same entries outside the keys. */
  lemma {:induction false} OutsideAgree(a: seq<Quote>, b: seq<Quote>, keys: seq<string>)
    requires |a| == |b| && forall i :: 0 <= i < |a| ==> a[i].id == b[i].id
    requires forall i :: 0 <= i < |a| && a[i].id !in keys ==> a[i] == b[i]
    ensures Outside(a, keys) == Outside(b, keys)
    decreases |a|
  {
    if |a| > 0 {
      OutsideAgree(a[..|a| - 1], b[..|b| - 1], keys);
    }
  }

  /** The entries of a map outside some keys form a map holding exactly the
      other keys' records. */
  lemma {:induction false} OutsideGet(m: seq<Quote>, keys: seq<string>)
    requires UniqueIds(m)
    ensures UniqueIds(Outside(m, keys))
    ensures forall id :: Get(Outside(m, keys), id) == if id in keys then None else Get(m, id)
    decreases |m|
  {
    var o := Outside(m, keys);
    if |m| > 0 {
      var p := m[..|m| - 1];
      var q := m[|m| - 1];
      assert m == p + [q];
      UniqueParts(p, [q]);
      OutsideGet(p, keys);
      var op := Outside(p, keys);
      if q.id !in keys {
        assert o == op + [q];
        assert Ids([q]) == [q.id];
        assert q.id !in Ids(p);
        forall i | 0 <= i < |op|
          ensures op[i].id != q.id
        {
          assert op[i] in op;
          GetIn(op, op[i]);
        }
        forall i, j | 0 <= i < j < |o|
          ensures o[i].id != o[j].id
        {
          if j < |op| {
            assert o[i] == op[i] && o[j] == op[j];
          }
        }
        assert q.id !in Ids(op) by {
          forall i | 0 <= i < |op| ensures op[i].id != q.id { }
          NotInIds(op, q.id);
        }
        assert o == Put(op, q);
      }
    }
    forall id
      ensures Get(o, id) == if id in keys then None else Get(m, id)
    {
      if id !in keys {
        if Get(m, id).Some? {
          GetIn(o, Get(m, id).value);
        } else if Get(o, id).Some? {
          GetIn(m, Get(o, id).value);
        }
      }
    }
  }

  /** In a map, the last entry for an id is the only one. */
  lemma LastUnique(m: seq<Quote>)
    requires UniqueIds(m)
    ensures forall id :: Last(m, id) == Get(m, id)
  {
    ToMapOfUnique(m);
  }
}

=== FILE: import.dfy ===
/**
 The body of `importFromJsonFile` once the file is parsed: every element of
 the imported array is validated and cleaned into a quote (dropped when it is
 not an object, or when its trimmed text or category is empty), and the
 cleaned quotes are merged into the local map by id. An imported quote
 replaces the local one only when it is at least as new; unseen ids are
 appended.
 */
module Importer {
  import opened Quotes
  import opened IdMap
  import opened JsText

  /** One element of the imported array. An absent or falsy `id`, `text` or
      `category` is `None` (or the empty string); truthy non-string values of
      these fields are not modelled. An `updatedAt` that is not a number is
      `None`. */
  datatype RawItem =
    | NotAnObject
    | Object(id: Option<string>, text: Option<string>, category: Option<string>, updatedAt: Option<int>)

  /** A quote the import accepts: trimmed, non-empty text and category, and a truthy id. */
  predicate Clean(q: Quote)
  {
    q.id != "" && q.text != "" && q.category != "" && Trimmed(q.text) && Trimmed(q.category)
  }

  /** Validate and clean one element; `newId` is the id generated for it if it has none. */
  function CleanItem(raw: RawItem, newId: NonEmptyString, now: int): (r: Option<Quote>)
    ensures raw.NotAnObject? ==> r.None?
    ensures raw.Object? ==> (r.Some? <==> !AllSpace(OrElse(raw.text, "")) && !AllSpace(OrElse(raw.category, "General")))
    ensures r.Some? ==> Clean(r.value)
    ensures r.Some? ==> r.value.id == (if raw.id.Some? && raw.id.value != "" then raw.id.value else newId)
    ensures r.Some? ==> r.value.text == Trim(OrElse(raw.text, ""))
    ensures r.Some? ==> r.value.category == Trim(OrElse(raw.category, "General"))
    ensures r.Some? && OrElse(raw.category, "") == "" ==> r.value.category == "General"
    ensures r.Some? ==> r.value.updatedAt == (if raw.updatedAt.Some? then raw.updatedAt.value else now)
  {
    match raw
    case NotAnObject => None
    case Object(id, text, category, updatedAt) =>
      var q := Quote(OrElse(id, newId),
                     Trim(OrElse(text, "")),
                     Trim(OrElse(category, "General")),
                     if updatedAt.Some? then updatedAt.value else now);
      if q.text == "" || q.category == "" then None else Some(q)
  }

  /** `idx` lists, in increasing order, the positions of exactly the elements
      of `raws` that `CleanItem` keeps, and `r[k]` is what it makes of
      element `idx[k]`. */
  predicate KeptAt(raws: seq<RawItem>, now: int, gen: nat -> NonEmptyString, r: seq<Quote>, idx: seq<nat>)
  {
    && |idx| == |r|
    && (forall k :: 0 <= k < |r| ==> idx[k] < |raws| && CleanItem(raws[idx[k]], gen(idx[k]), now) == Some(r[k]))
    && (forall k, l :: 0 <= k < l < |idx| ==> idx[k] < idx[l])
    && (forall i :: 0 <= i < |raws| && CleanItem(raws[i], gen(i), now).Some? ==> i in idx)
  }

  /** The cleaned list: exactly the elements `CleanItem` keeps, one result per
      kept element, in input order. Element `i` gets `gen(i)` as its
      generated id. */
  function CleanAll(raws: seq<RawItem>, now: int, gen: nat -> NonEmptyString): (r: seq<Quote>)
    ensures exists idx :: KeptAt(raws, now, gen, r, idx)
    ensures |r| <= |raws|
    ensures forall q :: q in r ==> Clean(q)
    ensures (forall i :: 0 <= i < |raws| ==> raws[i].NotAnObject?) ==> r == []
    ensures forall i :: 0 <= i < |raws| && CleanItem(raws[i], gen(i), now).Some? ==> CleanItem(raws[i], gen(i), now).value in r
    ensures forall q :: q in r ==> exists i :: 0 <= i < |raws| && CleanItem(raws[i], gen(i), now) == Some(q)
    decreases |raws|
  {
    if |raws| == 0 then assert KeptAt(raws, now, gen, [], []); []
    else
      var p := raws[..|raws| - 1];
      var prev := CleanAll(p, now, gen);
      var c := CleanItem(raws[|raws| - 1], gen(|raws| - 1), now);
      var r := if c.Some? then prev + [c.value] else prev;
      CleanAllStep(raws, p, prev, r, now, gen);
      CleanAllStepOrder(raws, p, prev, r, now, gen);
      r
  }

  /** The position witness of `CleanAll` carries over from the list without
      its last element to the whole list: the last position is added when
      that element is kept. */
  lemma CleanAllStepOrder(raws: seq<RawItem>, p: seq<RawItem>, prev: seq<Quote>, r: seq<Quote>, now: int, gen: nat -> NonEmptyString)
    requires |raws| > 0 && p == raws[..|raws| - 1]
    requires var c := CleanItem(raws[|raws| - 1], gen(|raws| - 1), now);
      r == if c.Some? then prev + [c.value] else prev
    requires exists idx :: KeptAt(p, now, gen, prev, idx)
    ensures exists idx :: KeptAt(raws, now, gen, r, idx)
  {
    var n := |raws| - 1;
    var idx :| KeptAt(p, now, gen, prev, idx);
    var c := CleanItem(raws[n], gen(n), now);
    if c.Some? {
      KeptAtSnoc(raws, p, prev, idx, c.value, now, gen);
    } else {
      KeptAtSkip(raws, p, prev, idx, now, gen);
    }
  }

  /** A kept last element extends the witness by its position. */
  lemma KeptAtSnoc(raws: seq<RawItem>, p: seq<RawItem>, prev: seq<Quote>, idx: seq<nat>, q: Quote, now: int, gen: nat -> NonEmptyString)
    requires |raws| > 0 && p == raws[..|raws| - 1]
    requires CleanItem(raws[|raws| - 1], gen(|raws| - 1), now) == Some(q)
    requires KeptAt(p, now, gen, prev, idx)
    ensures KeptAt(raws, now, gen, prev + [q], idx + [|raws| - 1])
  {
    var n := |raws| - 1;
    var r, idx' := prev + [q], idx + [n];
    assert forall k :: 0 <= k < |idx| ==> idx[k] < n;
    IncreasingSnoc(idx, n);
    KeptAtSnocCovers(raws, p, prev, idx, now, gen);
    KeptAtSnocHits(raws, p, prev, idx, q, r, idx', now, gen);
  }

  /** Appending a position above every listed one keeps the list increasing. */
  lemma IncreasingSnoc(idx: seq<nat>, n: nat)
    requires forall k :: 0 <= k < |idx| ==> idx[k] < n
    requires forall k, l :: 0 <= k < l < |idx| ==> idx[k] < idx[l]
    ensures forall k, l :: 0 <= k < l < |idx| + 1 ==> (idx + [n])[k] < (idx + [n])[l]
  {
  }

  /** Each position of the extended witness points at the element that
      cleans into the matching quote. */
  lemma KeptAtSnocHits(raws: seq<RawItem>, p: seq<RawItem>, prev: seq<Quote>, idx: seq<nat>, q: Quote, r: seq<Quote>, idx': seq<nat>, now: int, gen: nat -> NonEmptyString)
    requires |raws| > 0 && p == raws[..|raws| - 1]
    requires |idx| == |prev| && r == prev + [q] && idx' == idx + [|raws| - 1]
    requires CleanItem(raws[|raws| - 1], gen(|raws| - 1), now) == Some(q)
    requires forall k :: 0 <= k < |prev| ==> idx[k] < |p| && CleanItem(p[idx[k]], gen(idx[k]), now) == Some(prev[k])
    ensures forall k :: 0 <= k < |r| ==> idx'[k] < |raws| && CleanItem(raws[idx'[k]], gen(idx'[k]), now) == Some(r[k])
  {
    forall k | 0 <= k < |r|
      ensures idx'[k] < |raws| && CleanItem(raws[idx'[k]], gen(idx'[k]), now) == Some(r[k])
    {
      if k < |prev| {
        assert idx'[k] == idx[k] && r[k] == prev[k];
        assert p[idx[k]] == raws[idx[k]];
      }
    }
  }

  /** Every kept position of the whole list is in the extended witness. */
  lemma KeptAtSnocCovers(raws: seq<RawItem>, p: seq<RawItem>, prev: seq<Quote>, idx: seq<nat>, now: int, gen: nat -> NonEmptyString)
    requires |raws| > 0 && p == raws[..|raws| - 1]
    requires KeptAt(p, now, gen, prev, idx)
    ensures forall i :: 0 <= i < |raws| && CleanItem(raws[i], gen(i), now).Some? ==> i in idx + [|raws| - 1]
  {
    var n := |raws| - 1;
    forall i | 0 <= i < |raws| && CleanItem(raws[i], gen(i), now).Some?
      ensures i in idx + [n]
    {
      if i < n {
        assert p[i] == raws[i];
        assert i in idx;
      } else {
        assert (idx + [n])[|idx|] == i;
      }
    }
  }

  /** A dropped last element leaves the witness as it was. */
  lemma KeptAtSkip(raws: seq<RawItem>, p: seq<RawItem>, prev: seq<Quote>, idx: seq<nat>, now: int, gen: nat -> NonEmptyString)
    requires |raws| > 0 && p == raws[..|raws| - 1]
    requires CleanItem(raws[|raws| - 1], gen(|raws| - 1), now).None?
    requires KeptAt(p, now, gen, prev, idx)
    ensures KeptAt(raws, now, gen, prev, idx)
  {
    var n := |raws| - 1;
    forall k | 0 <= k < |prev|
      ensures idx[k] < |raws| && CleanItem(raws[idx[k]], gen(idx[k]), now) == Some(prev[k])
    {
      assert p[idx[k]] == raws[idx[k]];
    }
    forall i | 0 <= i < |raws| && CleanItem(raws[i], gen(i), now).Some?
      ensures i in idx
    {
      assert i < n;
      assert p[i] == raws[i];
    }
  }

  /** The two directions of `CleanAll`'s contract carry over from the list
      without its last element to the whole list. */
  lemma CleanAllStep(raws: seq<RawItem>, p: seq<RawItem>, prev: seq<Quote>, r: seq<Quote>, now: int, gen: nat -> NonEmptyString)
    requires |raws| > 0 && p == raws[..|raws| - 1]
    requires var c := CleanItem(raws[|raws| - 1], gen(|raws| - 1), now);
      r == if c.Some? then prev + [c.value] else prev
    requires forall i :: 0 <= i < |p| && CleanItem(p[i], gen(i), now).Some? ==> CleanItem(p[i], gen(i), now).value in prev
    requires forall q :: q in prev ==> exists i :: 0 <= i < |p| && CleanItem(p[i], gen(i), now) == Some(q)
    ensures forall i :: 0 <= i < |raws| && CleanItem(raws[i], gen(i), now).Some? ==> CleanItem(raws[i], gen(i), now).value in r
    ensures forall q :: q in r ==> exists i :: 0 <= i < |raws| && CleanItem(raws[i], gen(i), now) == Some(q)
  {
    CleanAllStepKept(raws, p, prev, r, now, gen);
    CleanAllStepFrom(raws, p, prev, r, now, gen);
  }

  lemma CleanAllStepKept(raws: seq<RawItem>, p: seq<RawItem>, prev: seq<Quote>, r: seq<Quote>, now: int, gen: nat -> NonEmptyString)
    requires |raws| > 0 && p == raws[..|raws| - 1]
    requires var c := CleanItem(raws[|raws| - 1], gen(|raws| - 1), now);
      r == if c.Some? then prev + [c.value] else prev
    requires forall i :: 0 <= i < |p| && CleanItem(p[i], gen(i), now).Some? ==> CleanItem(p[i], gen(i), now).value in prev
    ensures forall i :: 0 <= i < |raws| && CleanItem(raws[i], gen(i), now).Some? ==> CleanItem(raws[i], gen(i), now).value in r
  {
    var n := |raws| - 1;
    forall i | 0 <= i < |raws| && CleanItem(raws[i], gen(i), now).Some?
      ensures CleanItem(raws[i], gen(i), now).value in r
    {
      if i < n {
        assert p[i] == raws[i];
      }
    }
  }

  lemma CleanAllStepFrom(raws: seq<RawItem>, p: seq<RawItem>, prev: seq<Quote>, r: seq<Quote>, now: int, gen: nat -> NonEmptyString)
    requires |raws| > 0 && p == raws[..|raws| - 1]
    requires var c := CleanItem(raws[|raws| - 1], gen(|raws| - 1), now);
      r == if c.Some? then prev + [c.value] else prev
    requires forall q :: q in prev ==> exists i :: 0 <= i < |p| && CleanItem(p[i], gen(i), now) == Some(q)
    ensures forall q :: q in r ==> exists i :: 0 <= i < |raws| && CleanItem(raws[i], gen(i), now) == Some(q)
  {
    var n := |raws| - 1;
    forall q | q in r
      ensures exists i :: 0 <= i < |raws| && CleanItem(raws[i], gen(i), now) == Some(q)
    {
      if q in prev {
        var i :| 0 <= i < |p| && CleanItem(p[i], gen(i), now) == Some(q);
        assert p[i] == raws[i];
      } else {
        assert CleanItem(raws[n], gen(n), now) == Some(q);
      }
    }
  }

  /** One iteration of the merge loop: take the imported quote unless the
      local map holds a strictly newer record for its id. */
  function Offer(m: seq<Quote>, it: Quote): (r: seq<Quote>)
    requires UniqueIds(m)
    ensures UniqueIds(r)
    ensures Ids(r) == Ids(Put(m, it))
    ensures forall id :: id != it.id ==> Get(r, id) == Get(m, id)
    ensures Get(r, it.id) == match Get(m, it.id)
      case Some(l) => if it.updatedAt >= l.updatedAt then Some(it) else Some(l)
      case None => Some(it)
  {
    match Get(m, it.id)
    case None => Put(m, it)
    case Some(local) => if it.updatedAt >= local.updatedAt then Put(m, it) else PutSame(m, local); m
  }

  /** The merge loop over the cleaned quotes, in order. */
  function Merge(m: seq<Quote>, items: seq<Quote>): (r: seq<Quote>)
    requires UniqueIds(m)
    ensures UniqueIds(r)
    ensures Ids(r) == Ids(PutAll(m, items))
    ensures forall id :: id !in Ids(items) ==> Get(r, id) == Get(m, id)
    decreases |items|
  {
    if |items| == 0 then m
    else
      var p := items[..|items| - 1];
      var x := items[|items| - 1];
      assert items == p + [x];
      IdsAppend(p, x);
      MergeStepIds(Merge(m, p), PutAll(m, p), x);
      Offer(Merge(m, p), x)
  }

  /** Two maps with the same keys still have the same keys after setting one
      more record into each. */
  lemma MergeStepIds(a: seq<Quote>, b: seq<Quote>, x: Quote)
    requires UniqueIds(a) && UniqueIds(b) && Ids(a) == Ids(b)
    ensures Ids(Put(a, x)) == Ids(Put(b, x))
  {
  }

  datatype ImportOutcome = NoValidQuotes | Imported(quotes: seq<Quote>, count: nat)

  /** Import `raws` into the local list `quotes`: nothing changes when no
      element survives cleaning; otherwise the cleaned quotes are merged into
      the local map, and `count` is the number of cleaned quotes. */
  function ImportQuotes(quotes: seq<Quote>, raws: seq<RawItem>, now: int, gen: nat -> NonEmptyString): (o: ImportOutcome)
    ensures o.NoValidQuotes? <==> CleanAll(raws, now, gen) == []
    ensures o.Imported? ==> o.count == |CleanAll(raws, now, gen)| > 0 && UniqueIds(o.quotes)
    ensures o.Imported? ==> forall id :: id in Ids(o.quotes) <==> id in Ids(quotes) || id in Ids(CleanAll(raws, now, gen))
    ensures o.Imported? ==> forall id :: id in Ids(CleanAll(raws, now, gen)) ==>
      Get(o.quotes, id).Some? && Winner(Candidates(ToMap(quotes), CleanAll(raws, now, gen), id), Get(o.quotes, id).value)
    ensures o.Imported? ==> forall id :: id !in Ids(CleanAll(raws, now, gen)) ==> Get(o.quotes, id) == Last(quotes, id)
  {
    var cleaned := CleanAll(raws, now, gen);
    if |cleaned| == 0 then NoValidQuotes
    else
      MergeKeepsNewestAll(ToMap(quotes), cleaned);
      Imported(Merge(ToMap(quotes), cleaned), |cleaned|)
  }

  /** `MergeKeepsNewest` for every imported id at once. */
  lemma MergeKeepsNewestAll(m: seq<Quote>, items: seq<Quote>)
    requires UniqueIds(m)
    ensures forall id :: id in Ids(items) ==>
      Get(Merge(m, items), id).Some? && Winner(Candidates(m, items, id), Get(Merge(m, items), id).value)
  {
    var r := Merge(m, items);
    forall id | id in Ids(items)
      ensures Get(r, id).Some? && Winner(Candidates(m, items, id), Get(r, id).value)
    {
      assert Get(PutAll(m, items), id).Some?;
      MergeKeepsNewest(m, items, id);
    }
  }

  /** The records competing for `id`: the local one first, if any, then the
      imported ones with that id, in import order. */
  function Candidates(m: seq<Quote>, items: seq<Quote>, id: string): seq<Quote>
  {
    (match Get(m, id) case Some(l) => [l] case None => []) + WithId(items, id)
  }

  function WithId(items: seq<Quote>, id: string): (r: seq<Quote>)
    ensures forall q :: q in r ==> q in items && q.id == id
    decreases |items|
  {
    if |items| == 0 then []
    else
      var p := WithId(items[..|items| - 1], id);
      var x := items[|items| - 1];
      if x.id == id then p + [x] else p
  }

  /** `w` is the newest record of `cs`, and no record after it is as new. */
  predicate Winner(cs: seq<Quote>, w: Quote)
  {
    exists k :: 0 <= k < |cs| && cs[k] == w
      && (forall j :: 0 <= j < |cs| ==> cs[j].updatedAt <= w.updatedAt)
      && (forall j :: k < j < |cs| ==> cs[j].updatedAt < w.updatedAt)
  }

  lemma WinnerSingle(x: Quote)
    ensures Winner([x], x)
  {
    assert [x][0] == x;
  }

  lemma WinnerStep(cs: seq<Quote>, w: Quote, x: Quote)
    requires Winner(cs, w)
    ensures Winner(cs + [x], if x.updatedAt >= w.updatedAt then x else w)
  {
    var k :| 0 <= k < |cs| && cs[k] == w
      && (forall j :: 0 <= j < |cs| ==> cs[j].updatedAt <= w.updatedAt)
      && (forall j :: k < j < |cs| ==> cs[j].updatedAt < w.updatedAt);
    var ds := cs + [x];
    if x.updatedAt >= w.updatedAt {
      assert ds[|cs|] == x;
    } else {
      assert ds[k] == w;
    }
  }

  /** For an imported id, the merged map holds the newest of the competing
      records, and when several are equally new the LAST of them: a tie
      between the local record and an imported one goes to the import, a tie
      between two imported ones goes to the later. */
  lemma {:induction false} MergeKeepsNewest(m: seq<Quote>, items: seq<Quote>, id: string)
    requires UniqueIds(m)
    ensures Get(Merge(m, items), id).Some? <==> |Candidates(m, items, id)| > 0
    ensures Get(Merge(m, items), id).Some? ==> Winner(Candidates(m, items, id), Get(Merge(m, items), id).value)
    decreases |items|
  {
    if |items| == 0 {
      assert WithId(items, id) == [];
      match Get(m, id)
      case None =>
      case Some(l) =>
        assert Candidates(m, items, id) == [l];
        WinnerSingle(l);
    } else {
      var p := items[..|items| - 1];
      var x := items[|items| - 1];
      assert items == p + [x];
      MergeKeepsNewest(m, p, id);
      var prev := Merge(m, p);
      assert Merge(m, items) == Offer(prev, x);
      NewestStep(m, p, x, id, prev);
    }
  }

  /** One merge step keeps the newest-wins property of the map merged so far. */
  lemma NewestStep(m: seq<Quote>, p: seq<Quote>, x: Quote, id: string, prev: seq<Quote>)
    requires UniqueIds(prev)
    requires Get(prev, id).Some? <==> |Candidates(m, p, id)| > 0
    requires Get(prev, id).Some? ==> Winner(Candidates(m, p, id), Get(prev, id).value)
    ensures Get(Offer(prev, x), id).Some? <==> |Candidates(m, p + [x], id)| > 0
    ensures Get(Offer(prev, x), id).Some? ==> Winner(Candidates(m, p + [x], id), Get(Offer(prev, x), id).value)
  {
    var ps := Candidates(m, p, id);
    assert (p + [x])[..|p|] == p;
    if x.id != id {
      assert WithId(p + [x], id) == WithId(p, id);
      assert Candidates(m, p + [x], id) == ps;
    } else {
      assert WithId(p + [x], id) == WithId(p, id) + [x];
      assert Candidates(m, p + [x], id) == ps + [x];
      match Get(prev, id)
      case None =>
        assert ps + [x] == [x];
        WinnerSingle(x);
      case Some(w) =>
        WinnerStep(ps, w, x);
    }
  }

  /** Ids the import does not mention keep their local record; the local keys
      keep their positions; unseen ids follow in order of first appearance. */
  lemma MergeKeyOrder(m: seq<Quote>, items: seq<Quote>)
    requires UniqueIds(m)
    ensures var r := Merge(m, items);
      && |m| <= |r|
      && (forall i :: 0 <= i < |m| ==> r[i].id == m[i].id)
      && (forall i :: 0 <= i < |m| && m[i].id !in Ids(items) ==> r[i] == m[i])
      && Ids(r[|m|..]) == Ids(ToMap(Outside(items, Ids(m))))
  {
    var r := Merge(m, items);
    var u := PutAll(m, items);
    PutAllKeepsKeys(m, items);
    PutAllAppendsNew(m, items);
    SameIds(r, u);
    KeysKept(m, r, Ids(items));
    assert Ids(r[|m|..]) == Ids(u[|m|..]);
  }

  lemma SameIds(a: seq<Quote>, b: seq<Quote>)
    requires Ids(a) == Ids(b)
    ensures |a| == |b|
    ensures forall i :: 0 <= i < |a| ==> a[i].id == b[i].id
    ensures forall k :: 0 <= k <= |a| ==> Ids(a[k..]) == Ids(b[k..])
  {
    assert |a| == |Ids(a)|;
    forall i | 0 <= i < |a| ensures a[i].id == b[i].id {
      assert Ids(a)[i] == Ids(b)[i];
    }
  }

  /** Where a map keeps the key positions of `m` and the records of the keys
      outside `touched`, those records sit where they were. */
  lemma KeysKept(m: seq<Quote>, r: seq<Quote>, touched: seq<string>)
    requires UniqueIds(m) && UniqueIds(r)
    requires |m| <= |r| && forall i :: 0 <= i < |m| ==> r[i].id == m[i].id
    requires forall id :: id !in touched ==> Get(r, id) == Get(m, id)
    ensures forall i :: 0 <= i < |m| && m[i].id !in touched ==> r[i] == m[i]
  {
    forall i | 0 <= i < |m| && m[i].id !in touched
      ensures r[i] == m[i]
    {
      GetAt(m, i);
      GetAt(r, i);
    }
  }
}

module ImportRoundTrip {
  import opened Quotes
  import opened IdMap
  import opened JsText
  import opened Importer

  /** A quote as `exportToJsonFile` writes it: an object with every field present. */
  function AsRaw(q: Quote): (r: RawItem)
    ensures r.Object? && r.id == Some(q.id) && r.text == Some(q.text)
    ensures r.category == Some(q.category) && r.updatedAt == Some(q.updatedAt)
  {
    Object(Some(q.id), Some(q.text), Some(q.category), Some(q.updatedAt))
  }

  function Export(qs: seq<Quote>): (r: seq<RawItem>)
    ensures |r| == |qs| && forall i :: 0 <= i < |qs| ==> r[i] == AsRaw(qs[i])
  {
    seq(|qs|, i requires 0 <= i < |qs| => AsRaw(qs[i]))
  }

  /** Cleaning an already clean quote gives it back unchanged. */
  lemma CleanOfClean(q: Quote, newId: NonEmptyString, now: int)
    requires Clean(q)
    ensures CleanItem(AsRaw(q), newId, now) == Some(q)
  {
    TrimOfTrimmed(q.text);
    TrimOfTrimmed(q.category);
  }

  lemma {:induction false} CleanAllOfExport(qs: seq<Quote>, now: int, gen: nat -> NonEmptyString)
    requires forall q :: q in qs ==> Clean(q)
    ensures CleanAll(Export(qs), now, gen) == qs
    decreases |qs|
  {
    if |qs| > 0 {
      var p := qs[..|qs| - 1];
      var x := qs[|qs| - 1];
      assert qs == p + [x];
      var e := Export(qs);
      assert e[..|e| - 1] == Export(p);
      assert e[|e| - 1] == AsRaw(x);
      assert x in qs;
      CleanOfClean(x, gen(|qs| - 1), now);
      CleanAllKeepsLast(e, x, now, gen);
      assert forall q :: q in p ==> q in qs;
      CleanAllOfExport(p, now, gen);
    }
  }

  /** When the last element cleans to `x`, the cleaned list ends with `x`. */
  lemma CleanAllKeepsLast(e: seq<RawItem>, x: Quote, now: int, gen: nat -> NonEmptyString)
    requires |e| > 0 && CleanItem(e[|e| - 1], gen(|e| - 1), now) == Some(x)
    ensures CleanAll(e, now, gen) == CleanAll(e[..|e| - 1], now, gen) + [x]
  {
  }

  /** Merging records the map already holds changes nothing. */
  lemma {:induction false} MergePresent(m: seq<Quote>, items: seq<Quote>)
    requires UniqueIds(m)
    requires forall q :: q in items ==> Get(m, q.id) == Some(q)
    ensures Merge(m, items) == m
    decreases |items|
  {
    if |items| > 0 {
      var p := items[..|items| - 1];
      var x := items[|items| - 1];
      assert forall q :: q in p ==> q in items;
      MergePresent(m, p);
      PutSame(m, x);
    }
  }

  /** Importing the file the app exports for a list of clean, distinct-id
      quotes gives back the same list and reports every quote. */
  lemma ImportOwnExport(qs: seq<Quote>, now: int, gen: nat -> NonEmptyString)
    requires UniqueIds(qs) && |qs| > 0
    requires forall q :: q in qs ==> Clean(q)
    ensures ImportQuotes(qs, Export(qs), now, gen) == Imported(qs, |qs|)
  {
    CleanAllOfExport(qs, now, gen);
    ToMapOfUnique(qs);
    forall q | q in qs ensures Get(qs, q.id) == Some(q) {
      GetIn(qs, q);
    }
    MergePresent(qs, qs);
  }

  /** A tie on `updatedAt` between a local record and an imported one goes to
      the import. */
  lemma ImportTieGoesToImport(local: Quote, incoming: Quote)
    requires local.id == incoming.id && local.updatedAt == incoming.updatedAt
    ensures Merge([local], [incoming]) == [incoming]
  {
    assert Merge([local], [incoming]) == Offer(Merge([local], []), incoming);
    assert Get([local], local.id) == Some(local);
  }

  /** A strictly older imported record leaves the local one in place. */
  lemma ImportOlderIgnored(local: Quote, incoming: Quote)
    requires local.id == incoming.id && incoming.updatedAt < local.updatedAt
    ensures Merge([local], [incoming]) == [local]
  {
    assert Merge([local], [incoming]) == Offer(Merge([local], []), incoming);
    assert Get([local], local.id) == Some(local);
  }
}

=== FILE: jstext.dfy ===
/**
 The two pieces of JavaScript string behaviour the import and load code rely
 on: `String.prototype.trim`, which strips white space and line terminators
 from both ends, and `value || fallback` on a string field that may be
 missing, where the empty string counts as false.
 */
module JsText {
  import opened Quotes

  /** The characters `trim` removes: ECMAScript WhiteSpace and LineTerminator
      (tab, vertical tab, form feed, space, no-break space, byte order mark,
      the Unicode space separators, line feed, carriage return, and the line
      and paragraph separators). */
  predicate IsSpace(c: char)
  {
    var n := c as int;
    || n == 0x09 || n == 0x0A || n == 0x0B || n == 0x0C || n == 0x0D
    || n == 0x20 || n == 0xA0 || n == 0x1680
    || (0x2000 <= n <= 0x200A)
    || n == 0x2028 || n == 0x2029 || n == 0x202F || n == 0x205F
    || n == 0x3000 || n == 0xFEFF
  }

  predicate AllSpace(s: string)
  {
    forall i :: 0 <= i < |s| ==> IsSpace(s[i])
  }

  /** Neither end of `s` is a space. */
  predicate Trimmed(s: string)
  {
    s == [] || (!IsSpace(s[0]) && !IsSpace(s[|s| - 1]))
  }

  /** The first position at or after `i` that is not a space. */
  function SkipSpaces(s: string, i: nat): (j: nat)
    requires i <= |s|
    ensures i <= j <= |s|
    ensures forall k :: i <= k < j ==> IsSpace(s[k])
    ensures j == |s| || !IsSpace(s[j])
    decreases |s| - i
  {
    if i < |s| && IsSpace(s[i]) then SkipSpaces(s, i + 1) else i
  }

  /** The end of `s[lo..j]` once its trailing spaces are dropped. */
  function DropSpaces(s: string, lo: nat, j: nat): (e: nat)
    requires lo <= j <= |s|
    ensures lo <= e <= j
    ensures forall k :: e <= k < j ==> IsSpace(s[k])
    ensures e == lo || !IsSpace(s[e - 1])
    decreases j - lo
  {
    if lo < j && IsSpace(s[j - 1]) then DropSpaces(s, lo, j - 1) else j
  }

  /** `String.prototype.trim`: the middle of `s` between its leading and
      trailing spaces. */
  function Trim(s: string): (r: string)
    ensures Trimmed(r)
    ensures exists i, j ::
              && 0 <= i <= j <= |s| && r == s[i..j]
              && (forall k :: 0 <= k < i ==> IsSpace(s[k]))
              && (forall k :: j <= k < |s| ==> IsSpace(s[k]))
    ensures r == [] <==> AllSpace(s)
  {
    var i := SkipSpaces(s, 0);
    var j := DropSpaces(s, i, |s|);
    assert i < j ==> s[i..j][0] == s[i] && s[i..j][j - i - 1] == s[j - 1];
    s[i..j]
  }

  /** Trimming a string with no space at either end leaves it alone. */
  lemma TrimOfTrimmed(s: string)
    requires Trimmed(s)
    ensures Trim(s) == s
  {
  }

  lemma TrimIdempotent(s: string)
    ensures Trim(Trim(s)) == Trim(s)
  {
    TrimOfTrimmed(Trim(s));
  }

  /** `v || fallback` for a string field `v` that may be missing: a missing
      or empty string is falsy and gives way to the fallback. */
  function OrElse(v: Option<string>, fallback: string): (r: string)
    ensures v.Some? && v.value != "" ==> r == v.value
    ensures v.None? || v.value == "" ==> r == fallback
  {
    if v.Some? && v.value != "" then v.value else fallback
  }
}

=== FILE: ledger.dfy ===
/**
 The conflict-backup ledger: a raw, append-only log of local versions a sync
 overwrote. Several entries may share an id. Dismissing (and restoring) acts
 on the first entry with the id and removes exactly that one entry.
 */
module Ledger {
  import opened Quotes

  /** `addConflictBackup`: log one overwritten local version at time `now`. */
  function AddConflictBackup(backups: seq<Backup>, local: Quote, server: Quote, now: int): (r: seq<Backup>)
    ensures |r| == |backups| + 1 && r[..|backups|] == backups
    ensures r[|backups|].id() == local.id && r[|backups|].when == now
    ensures r[|backups|].local == local && r[|backups|].server == server
    ensures forall id :: Count(r, id) == Count(backups, id) + (if id == local.id then 1 else 0)
  {
    var b := Backup(local, server, now);
    var r := backups + [b];
    CountConcat(backups, [b]);
    CountSingle(b);
    r
  }

  /** The number of entries logged for `id`. */
  function Count(backups: seq<Backup>, id: string): nat
  {
    if |backups| == 0 then 0
    else (if backups[0].id() == id then 1 else 0) + Count(backups[1..], id)
  }

  lemma {:induction false} CountConcat(a: seq<Backup>, b: seq<Backup>)
    ensures forall id :: Count(a + b, id) == Count(a, id) + Count(b, id)
    decreases |a|
  {
    if |a| > 0 {
      assert (a + b)[1..] == a[1..] + b;
      CountConcat(a[1..], b);
    } else {
      assert a + b == b;
    }
  }

  lemma CountSingle(b: Backup)
    ensures forall id :: Count([b], id) == if b.id() == id then 1 else 0
  {
    assert [b][1..] == [];
  }

  /** `backups.findIndex(b => b.id === id)`: the first entry logged for `id`. */
  function FindFirst(backups: seq<Backup>, id: string): (r: Option<nat>)
    ensures r.Some? ==> r.value < |backups| && backups[r.value].id() == id
    ensures r.Some? ==> forall j :: 0 <= j < r.value ==> backups[j].id() != id
    ensures r.None? ==> forall j :: 0 <= j < |backups| ==> backups[j].id() != id
  {
    if |backups| == 0 then None
    else if backups[0].id() == id then Some(0)
    else
      match FindFirst(backups[1..], id)
      case None => None
      case Some(k) => Some(k + 1)
  }

  /** `backups.splice(i, 1)`. */
  function RemoveAt(backups: seq<Backup>, i: nat): (r: seq<Backup>)
    requires i < |backups|
    ensures |r| == |backups| - 1
    ensures forall j :: 0 <= j < i ==> r[j] == backups[j]
    ensures forall j :: i <= j < |r| ==> r[j] == backups[j + 1]
  {
    backups[..i] + backups[i + 1..]
  }

  /** `dismissConflict`: drop the first entry logged for `id`, if there is one. */
  function Dismiss(backups: seq<Backup>, id: string): (r: seq<Backup>)
    ensures FindFirst(backups, id).None? ==> r == backups
    ensures FindFirst(backups, id).Some? ==> |r| == |backups| - 1
    ensures FindFirst(backups, id).Some? ==> Count(r, id) == Count(backups, id) - 1
    ensures forall other :: other != id ==> Count(r, other) == Count(backups, other)
  {
    match FindFirst(backups, id)
    case None => backups
    case Some(i) =>
      RemoveFirstCounts(backups, id);
      RemoveAt(backups, i)
  }

  /** Removing the first entry for `id` removes exactly one entry for `id`,
      the other entries (including later ones for `id`) staying in order. */
  lemma RemoveFirstCounts(backups: seq<Backup>, id: string)
    requires FindFirst(backups, id).Some?
    ensures var i := FindFirst(backups, id).value;
      && Count(RemoveAt(backups, i), id) == Count(backups, id) - 1
      && (forall other :: other != id ==> Count(RemoveAt(backups, i), other) == Count(backups, other))
      && multiset(RemoveAt(backups, i)) + multiset{backups[i]} == multiset(backups)
  {
    var i := FindFirst(backups, id).value;
    var a, x, b := backups[..i], backups[i], backups[i + 1..];
    assert backups == a + ([x] + b);
    CountConcat(a, [x] + b);
    CountConcat([x], b);
    CountConcat(a, b);
    CountSingle(x);
    assert RemoveAt(backups, i) == a + b;
    assert multiset(backups) == multiset(a) + multiset{x} + multiset(b);
  }

  /** Dismissing removes exactly the first entry logged for `id` and keeps all
      others, including later duplicates for the same id; with no entry for
      `id` it changes nothing. */
  lemma DismissRemovesFirstOnly(backups: seq<Backup>, id: string)
    ensures Count(backups, id) == 0 ==> Dismiss(backups, id) == backups
    ensures Count(backups, id) > 0 ==>
      && Count(Dismiss(backups, id), id) == Count(backups, id) - 1
      && (forall other :: other != id ==> Count(Dismiss(backups, id), other) == Count(backups, other))
      && exists i :: 0 <= i < |backups| && backups[i].id() == id
           && (forall j :: 0 <= j < i ==> backups[j].id() != id)
           && Dismiss(backups, id) == backups[..i] + backups[i + 1..]
  {
    CountPositive(backups, id);
    if FindFirst(backups, id).Some? {
      RemoveFirstCounts(backups, id);
      var i := FindFirst(backups, id).value;
      assert Dismiss(backups, id) == backups[..i] + backups[i + 1..];
    }
  }

  /** An id has logged entries exactly when some entry carries it. */
  lemma {:induction false} CountPositive(backups: seq<Backup>, id: string)
    ensures Count(backups, id) > 0 <==> FindFirst(backups, id).Some?
    decreases |backups|
  {
    if |backups| > 0 {
      CountPositive(backups[1..], id);
    }
  }
}

=== FILE: load.dfy ===
/**
 Loading the local list (`loadQuotes`): an absent, unreadable or empty stored
 list is replaced by three built-in quotes; then every item is normalised, so
 that items written by older versions of the app get an id, a category and a
 timestamp; the result is saved back.
 */
module Load {
  import opened Quotes
  import opened JsText

  /** One stored item as read back from storage. A missing or falsy field is
      `None`; `updatedAt` is `None` when the stored value is not a number. */
  datatype StoredQuote = StoredQuote(id: Option<string>, text: string, category: Option<string>, updatedAt: Option<int>)

  /** An item needs no normalising: it has a non-empty id and category. */
  predicate Normal(q: Quote)
  {
    q.id != "" && q.category != ""
  }

  /** Normalise one stored item; `newId` is the id generated for it if it has none. */
  function Normalize(s: StoredQuote, newId: NonEmptyString, now: int): (q: Quote)
    ensures Normal(q) && q.text == s.text
    ensures q.id == (if s.id.Some? && s.id.value != "" then s.id.value else newId)
    ensures q.category == (if s.category.Some? && s.category.value != "" then s.category.value else "General")
    ensures q.updatedAt == (if s.updatedAt.Some? then s.updatedAt.value else now)
  {
    Quote(OrElse(s.id, newId), s.text, OrElse(s.category, "General"),
          if s.updatedAt.Some? then s.updatedAt.value else now)
  }

  /** The three quotes a first start (or an emptied store) begins with, all
      stamped `now`, with generated ids. */
  function Seeds(now: int, gen: nat -> NonEmptyString): (r: seq<Quote>)
    ensures |r| == 3 && forall i :: 0 <= i < |r| ==> Normal(r[i]) && r[i].updatedAt == now
    ensures forall i :: 0 <= i < |r| ==> r[i].id == gen(i)
    ensures r[0].category == "Motivation" && r[1].category == "Inspiration" && r[2].category == "Action"
  {
    [ Quote(gen(0), "The best way to get started is to quit talking and begin doing.", "Motivation", now),
      Quote(gen(1), "Success is not final, failure is not fatal: It is the courage to continue that counts.", "Inspiration", now),
      Quote(gen(2), "Do not wait for leaders; do it alone, person to person.", "Action", now) ]
  }

  /** A quote as `saveQuotes` writes it: every field present. */
  function Save(q: Quote): (s: StoredQuote)
    ensures s.text == q.text && s.updatedAt == Some(q.updatedAt)
    ensures s.id == Some(q.id) && s.category == Some(q.category)
    ensures Normal(q) ==> forall newId: NonEmptyString, now: int :: Normalize(s, newId, now) == q
  {
    StoredQuote(Some(q.id), q.text, Some(q.category), Some(q.updatedAt))
  }

  function SaveAll(qs: seq<Quote>): (r: seq<StoredQuote>)
    ensures |r| == |qs| && forall i :: 0 <= i < |qs| ==> r[i] == Save(qs[i])
  {
    seq(|qs|, i requires 0 <= i < |qs| => Save(qs[i]))
  }

  /** `loadQuotes` on the stored list `stored` (empty when the key is absent,
      unreadable, or not a non-empty array). Item `i` gets `gen(i)` as its
      generated id, and the seeds take `gen(0)`, `gen(1)`, `gen(2)`. */
  function LoadQuotes(stored: seq<StoredQuote>, now: int, gen: nat -> NonEmptyString): (r: seq<Quote>)
    ensures |stored| == 0 ==> r == Seeds(now, gen)
    ensures |stored| > 0 ==> |r| == |stored|
    ensures |stored| > 0 ==> forall i :: 0 <= i < |stored| ==> r[i] == Normalize(stored[i], gen(i), now)
    ensures forall i :: 0 <= i < |r| ==> Normal(r[i])
    ensures forall i :: 0 <= i < |stored| ==> r[i].text == stored[i].text
    ensures forall i :: 0 <= i < |stored| && stored[i].updatedAt.Some? ==> r[i].updatedAt == stored[i].updatedAt.value
    ensures forall i :: 0 <= i < |stored| && stored[i].id.Some? && stored[i].id.value != "" ==> r[i].id == stored[i].id.value
    ensures forall i :: 0 <= i < |stored| && stored[i].category.Some? && stored[i].category.value != "" ==> r[i].category == stored[i].category.value
  {
    if |stored| == 0 then Seeds(now, gen)
    else
      var r := seq(|stored|, i requires 0 <= i < |stored| => Normalize(stored[i], gen(i), now));
      assert forall i :: 0 <= i < |r| ==> r[i] == Normalize(stored[i], gen(i), now);
      r
  }

  /** Every item with an id, a category and a timestamp passes through unchanged. */
  lemma LoadKeepsNormalItems(stored: seq<StoredQuote>, now: int, gen: nat -> NonEmptyString, i: nat)
    requires i < |stored|
    requires stored[i].id.Some? && stored[i].id.value != ""
    requires stored[i].category.Some? && stored[i].category.value != ""
    requires stored[i].updatedAt.Some?
    ensures LoadQuotes(stored, now, gen)[i] == Quote(stored[i].id.value, stored[i].text, stored[i].category.value, stored[i].updatedAt.value)
  {
  }

  /** Loading is idempotent: saving what was loaded and loading it again, at
      any later time and with any fresh ids, gives the same list. */
  lemma LoadIdempotent(stored: seq<StoredQuote>, now: int, gen: nat -> NonEmptyString, later: int, gen2: nat -> NonEmptyString)
    ensures var once := LoadQuotes(stored, now, gen);
      LoadQuotes(SaveAll(once), later, gen2) == once
  {
    var once := LoadQuotes(stored, now, gen);
    LoadOfNormal(once, later, gen2);
  }

  /** A non-empty list of normal quotes loads back unchanged from its saved form. */
  lemma LoadOfNormal(qs: seq<Quote>, later: int, gen: nat -> NonEmptyString)
    requires |qs| > 0 && forall i :: 0 <= i < |qs| ==> Normal(qs[i])
    ensures LoadQuotes(SaveAll(qs), later, gen) == qs
  {
    var saved := SaveAll(qs);
    var r := LoadQuotes(saved, later, gen);
    forall i | 0 <= i < |qs| ensures r[i] == qs[i] {
      assert saved[i] == Save(qs[i]);
    }
  }
}

=== FILE: quote.dfy ===
/**
 The records the quote app keeps: a quote, identified by an opaque id and
 stamped with the millisecond time of its last change, and a conflict backup,
 the local version a sync overwrote together with the server version that won.
 */
module Quotes {

  datatype Option<+T> = None | Some(value: T)

  /** A string JavaScript treats as truthy (ids produced by the id generator are never empty). */
  type NonEmptyString = s: string | |s| > 0 witness "?"

  datatype Quote = Quote(id: string, text: string, category: string, updatedAt: int)

  /** A local version overwritten by the server during a sync. Its id is the
      id of the overwritten local version, as the app records it. */
  datatype Backup = Backup(local: Quote, server: Quote, when: int) {
    function id(): string { local.id }
  }

  /** The field comparison a sync uses to decide that the server copy must win
      (ids are the same by construction, so they are not compared). */
  predicate Differs(l: Quote, r: Quote)
  {
    l.text != r.text || l.category != r.category || l.updatedAt != r.updatedAt
  }

  /** For two records with the same id, the field comparison is plain inequality. */
  lemma DiffersIffUnequal(l: Quote, r: Quote)
    requires l.id == r.id
    ensures Differs(l, r) <==> l != r
  {
  }
}

=== FILE: restore.dfy ===
/**
 `restoreLocalVersion`: bring back the local version logged by the first
 backup for an id. The restored record is stamped with the current time, set
 into the local map, pushed to the server with `upsertMany`, and its backup is
 removed from the ledger. With no backup for the id nothing happens.
 */
module Restore {
  import opened Quotes
  import opened IdMap
  import opened Server
  import opened Ledger
  import opened Sync

  function Restore(s: Store, id: string, now: int): (r: Store)
    ensures FindFirst(s.backups, id).None? ==> r == s
    ensures FindFirst(s.backups, id).Some? ==> |r.backups| == |s.backups| - 1
  {
    match FindFirst(s.backups, id)
    case None => s
    case Some(i) =>
      var restored := s.backups[i].local.(updatedAt := now);
      Store(Put(ToMap(s.quotes), restored), UpsertMany(s.remote, [restored]), RemoveAt(s.backups, i))
  }

  /** The record a restore of `id` writes: the local version of the first
      backup for `id`, stamped `now`. */
  function Restored(backups: seq<Backup>, id: string, now: int): Option<Quote>
  {
    match FindFirst(backups, id)
    case None => None
    case Some(i) => Some(backups[i].local.(updatedAt := now))
  }

  /** A restore writes the logged local version, stamped `now`, under `id`
      both locally and on the server, leaves every other id alone on both
      sides, and removes exactly the first backup for `id`. */
  lemma RestoreWrites(s: Store, id: string, now: int)
    requires FindFirst(s.backups, id).Some?
    ensures var r, q := Restore(s, id, now), Restored(s.backups, id, now).value;
      && q.id == id && q.updatedAt == now
      && q.text == s.backups[FindFirst(s.backups, id).value].local.text
      && q.category == s.backups[FindFirst(s.backups, id).value].local.category
      && Get(r.quotes, id) == Some(q)
      && Get(ToMap(r.remote), id) == Some(q)
      && (forall other :: other != id ==> Get(r.quotes, other) == Last(s.quotes, other))
      && (forall other :: other != id ==> Get(ToMap(r.remote), other) == Last(s.remote, other))
      && r.backups == s.backups[..FindFirst(s.backups, id).value] + s.backups[FindFirst(s.backups, id).value + 1..]
      && Count(r.backups, id) == Count(s.backups, id) - 1
      && (forall other :: other != id ==> Count(r.backups, other) == Count(s.backups, other))
  {
    var r, q := Restore(s, id, now), Restored(s.backups, id, now).value;
    ToMapOfUnique(r.remote);
    assert Ids([q]) == [q.id];
    assert Last([q], q.id) == Some(q);
    RemoveFirstCounts(s.backups, id);
  }

  /** A restore followed at once by a sync, with no server change in between,
      keeps the restored record and logs no new backup for it: the push made
      by the restore means the sync finds nothing to overwrite. */
  lemma RestoreThenSyncKeepsRestored(s: Store, id: string, now: int, later: int)
    requires FindFirst(s.backups, id).Some?
    ensures var r, q := Restore(s, id, now), Restored(s.backups, id, now).value;
      var o := SyncNow(r, later);
      && Get(o.store.quotes, id) == Some(q)
      && Get(ToMap(o.store.remote), id) == Some(q)
      && Count(o.store.backups, id) == Count(r.backups, id)
  {
    var r, q := Restore(s, id, now), Restored(s.backups, id, now).value;
    RestoreWrites(s, id, now);
    ToMapOfUnique(r.quotes);
    ToMapOfUnique(r.remote);
    LastUnique(r.remote);
    SyncRemoteReachesLocal(r, later);
    SyncServerWins(r, later);
    SyncConverges(r, later);
    assert !InConflict(ToMap(r.quotes), ToMap(r.remote), id);
  }

  /** With duplicate backups for one id, a restore brings back the OLDEST
      logged version (the first match), not the most recent one. */
  lemma RestorePicksFirstLogged(s: Store, a: Quote, b: Quote, server: Quote, now: int)
    requires a.id == b.id
    requires s.backups == [Backup(a, server, 1), Backup(b, server, 2)]
    ensures Restore(s, a.id, now).backups == [Backup(b, server, 2)]
    ensures Get(Restore(s, a.id, now).quotes, a.id) == Some(a.(updatedAt := now))
  {
    RestoreWrites(s, a.id, now);
  }

  /** Restore and dismiss remove the same ledger entry. */
  lemma RestoreRemovesLikeDismiss(s: Store, id: string, now: int)
    ensures Restore(s, id, now).backups == Dismiss(s.backups, id)
  {
  }
}

=== FILE: server.dfy ===
/**
 The mock server: an array of quotes kept apart from the local list. Reading
 it is reading the array; `upsertMany` rebuilds it as an id-keyed map and sets
 every pushed quote into it, so the last write of an id wins.
 */
module Server {
  import opened Quotes
  import opened IdMap

  /** The two demo quotes the server holds before anything was pushed to it,
      stamped one minute and 45 seconds before the time of the first read. */
  function Seed(now: int): (r: seq<Quote>)
    ensures UniqueIds(r) && |r| == 2
    ensures forall q :: q in r ==> q.updatedAt < now && q.text != "" && q.category != ""
  {
    [ Quote("srv-1", "Stay hungry, stay foolish.", "Inspiration", now - 60000),
      Quote("srv-2", "Simplicity is the soul of efficiency.", "Productivity", now - 45000) ]
  }

  /** `MockServer.upsertMany`: the new server array after setting `items`. */
  function UpsertMany(remote: seq<Quote>, items: seq<Quote>): (r: seq<Quote>)
    ensures UniqueIds(r)
    ensures forall id :: Get(r, id) == if id in Ids(items) then Last(items, id) else Last(remote, id)
    ensures forall id :: id in Ids(r) <==> id in Ids(remote) || id in Ids(items)
  {
    PutAll(ToMap(remote), items)
  }

  /** Server ids the push does not mention keep their position and record;
      ids new to the server follow, in order of first appearance among the
      pushed items, each holding its last pushed record. */
  lemma {:induction false} UpsertManyOrder(remote: seq<Quote>, items: seq<Quote>)
    ensures var before, after := ToMap(remote), UpsertMany(remote, items);
      && |before| <= |after|
      && (forall i :: 0 <= i < |before| ==> after[i].id == before[i].id)
      && (forall i :: 0 <= i < |before| && before[i].id !in Ids(items) ==> after[i] == before[i])
      && after[|before|..] == ToMap(Outside(items, Ids(remote)))
  {
    var before := ToMap(remote);
    PutAllKeepsKeys(before, items);
    PutAllAppendsNew(before, items);
    OutsideSameKeys(items, Ids(before), Ids(remote));
  }

  /** One upsert of `a + b` is the same as upserting `a` and then `b`, and the
      result is the map of the old array followed by everything pushed. */
  lemma UpsertManyConcat(remote: seq<Quote>, a: seq<Quote>, b: seq<Quote>)
    ensures UpsertMany(UpsertMany(remote, a), b) == UpsertMany(remote, a + b)
    ensures UpsertMany(remote, a) == ToMap(remote + a)
  {
    var m := ToMap(remote);
    ToMapOfUnique(PutAll(m, a));
    PutAllConcat(m, a, b);
    PutAllConcat([], remote, a);
  }
}

=== FILE: sync.dfy ===
/**
 `syncNow`, the reconciler. Both sides are read as id-keyed maps. Every server
 record is applied to the local map with "server wins on any field
 difference": a new id is copied in, a differing local record is logged in the
 ledger and overwritten, an identical one is left alone. Local ids the server
 does not know are then pushed to it with `upsertMany`. The result is the new
 local list, server array and ledger, and the three counters the app reports.
 */
module Sync {
  import opened Quotes
  import opened IdMap
  import opened Server
  import opened Ledger

  /** The state the app persists: local list, mock-server array, backup ledger. */
  datatype Store = Store(quotes: seq<Quote>, remote: seq<Quote>, backups: seq<Backup>)

  /** The state of the loop that applies the server map to the local map. */
  datatype Pass = Pass(local: seq<Quote>, backups: seq<Backup>, added: nat, updated: nat, conflicts: nat)

  datatype SyncOutcome = SyncOutcome(store: Store, added: nat, updated: nat, conflicts: nat)

  /** One iteration of the loop, for the server record `r`. Whatever branch is
      taken, the local map ends up holding `r` under its id. */
  function ApplyOne(p: Pass, r: Quote, now: int): (p': Pass)
    requires UniqueIds(p.local)
    ensures p'.local == Put(p.local, r)
    ensures |p.backups| <= |p'.backups| && p'.backups[..|p.backups|] == p.backups
  {
    match Get(p.local, r.id)
    case None =>
      p.(local := Put(p.local, r), added := p.added + 1)
    case Some(l) =>
      if Differs(l, r) then
        p.(local := Put(p.local, r),
           backups := AddConflictBackup(p.backups, l, r, now),
           updated := p.updated + 1,
           conflicts := p.conflicts + 1)
      else
        DiffersIffUnequal(l, r);
        PutSame(p.local, r);
        p
  }

  /** The loop over the server records `rs`, in order. */
  function ApplyRemote(p: Pass, rs: seq<Quote>, now: int): (p': Pass)
    requires UniqueIds(p.local)
    ensures p'.local == PutAll(p.local, rs)
    ensures |p.backups| <= |p'.backups| && p'.backups[..|p.backups|] == p.backups
    decreases |rs|
  {
    if |rs| == 0 then p
    else
      var prev := ApplyRemote(p, rs[..|rs| - 1], now);
      var next := ApplyOne(prev, rs[|rs| - 1], now);
      assert next.backups[..|p.backups|] == prev.backups[..|prev.backups|][..|p.backups|];
      next
  }

  /** `syncNow` against the server array `s.remote`, at time `now`. */
  function SyncNow(s: Store, now: int): (o: SyncOutcome)
    ensures o.updated == o.conflicts
    ensures |s.backups| <= |o.store.backups| && o.store.backups[..|s.backups|] == s.backups
  {
    var local := ToMap(s.quotes);
    var remote := ToMap(s.remote);
    var p := ApplyRemote(Pass(local, s.backups, 0, 0, 0), remote, now);
    var push := Outside(p.local, Ids(remote));
    var server := if |push| > 0 then UpsertMany(s.remote, push) else s.remote;
    ApplyCounts(local, s.backups, remote, now);
    SyncOutcome(Store(p.local, server, p.backups), p.added, p.updated, p.conflicts)
  }

  /** The backups a sync logs, judged against the local map as it was before
      the sync: one per server record whose id is local with different fields,
      in server order. */
  function ConflictBackups(local: seq<Quote>, rs: seq<Quote>, now: int): seq<Backup>
    decreases |rs|
  {
    if |rs| == 0 then []
    else
      ConflictBackups(local, rs[..|rs| - 1], now) + Logged(local, rs[|rs| - 1], now)
  }

  /** The backup, if any, that the server record `r` causes against `local`. */
  function Logged(local: seq<Quote>, r: Quote, now: int): seq<Backup>
  {
    match Get(local, r.id)
    case Some(l) => if l != r then [Backup(l, r, now)] else []
    case None => []
  }

  /** The counters and the ledger after the loop, stated against the local
      map as it was before the loop. */
  lemma {:induction false} ApplyCounts(local: seq<Quote>, backups: seq<Backup>, rs: seq<Quote>, now: int)
    requires UniqueIds(local) && UniqueIds(rs)
    ensures var p := ApplyRemote(Pass(local, backups, 0, 0, 0), rs, now);
      && p.backups == backups + ConflictBackups(local, rs, now)
      && p.added == |Outside(rs, Ids(local))|
      && p.updated == |ConflictBackups(local, rs, now)|
      && p.conflicts == p.updated
    decreases |rs|
  {
    if |rs| > 0 {
      var pre := rs[..|rs| - 1];
      var r := rs[|rs| - 1];
      assert rs == pre + [r];
      UniqueParts(pre, [r]);
      assert Ids([r]) == [r.id];
      ApplyCounts(local, backups, pre, now);
      var prev := ApplyRemote(Pass(local, backups, 0, 0, 0), pre, now);
      assert Get(prev.local, r.id) == Get(local, r.id);
      ApplyOneCases(prev, local, r, now);
      ApplyOneCounts(prev, ApplyOne(prev, r, now), local, backups, pre, r, now);
    }
  }

  /** The loop invariant of `ApplyCounts` survives one iteration whose effect
      is the one `ApplyOneCases` states. */
  lemma ApplyOneCounts(prev: Pass, next: Pass, local: seq<Quote>, backups: seq<Backup>, pre: seq<Quote>, r: Quote, now: int)
    requires prev.backups == backups + ConflictBackups(local, pre, now)
    requires prev.added == |Outside(pre, Ids(local))|
    requires prev.updated == |ConflictBackups(local, pre, now)| && prev.conflicts == prev.updated
    requires next.backups == prev.backups + Logged(local, r, now)
    requires next.added == prev.added + (if Get(local, r.id).None? then 1 else 0)
    requires next.updated == prev.updated + |Logged(local, r, now)|
    requires next.conflicts == prev.conflicts + |Logged(local, r, now)|
    ensures next.backups == backups + ConflictBackups(local, pre + [r], now)
    ensures next.added == |Outside(pre + [r], Ids(local))|
    ensures next.updated == |ConflictBackups(local, pre + [r], now)|
    ensures next.conflicts == next.updated
  {
    var logged := Logged(local, r, now);
    OutsideSnoc(pre, r, Ids(local));
    ConflictBackupsSnoc(local, pre, r, now);
    assert backups + ConflictBackups(local, pre, now) + logged == backups + (ConflictBackups(local, pre, now) + logged);
  }

  /** One loop iteration, by its effect on the ledger and the counters: it
      logs what `Logged` says, and counts a new id or a conflict. */
  lemma ApplyOneCases(p: Pass, local: seq<Quote>, r: Quote, now: int)
    requires UniqueIds(p.local) && Get(p.local, r.id) == Get(local, r.id)
    ensures var next, logged := ApplyOne(p, r, now), Logged(local, r, now);
      && next.backups == p.backups + logged
      && next.added == p.added + (if Get(local, r.id).None? then 1 else 0)
      && next.updated == p.updated + |logged|
      && next.conflicts == p.conflicts + |logged|
  {
    match Get(p.local, r.id)
    case None =>
    case Some(l) =>
      DiffersIffUnequal(l, r);
  }

  lemma OutsideSnoc(pre: seq<Quote>, r: Quote, keys: seq<string>)
    ensures Outside(pre + [r], keys) == Outside(pre, keys) + (if r.id in keys then [] else [r])
    ensures |Outside(pre + [r], keys)| == |Outside(pre, keys)| + (if r.id in keys then 0 else 1)
  {
    assert (pre + [r])[..|pre|] == pre;
  }

  lemma ConflictBackupsSnoc(local: seq<Quote>, pre: seq<Quote>, r: Quote, now: int)
    ensures ConflictBackups(local, pre + [r], now) == ConflictBackups(local, pre, now) + Logged(local, r, now)
  {
    assert (pre + [r])[..|pre|] == pre;
  }

  /** Both maps hold `id`, with different records. */
  predicate InConflict(local: seq<Quote>, remote: seq<Quote>, id: string)
  {
    Get(local, id).Some? && Get(remote, id).Some? && Get(local, id) != Get(remote, id)
  }

  /** Exactly one backup per id that both sides hold with different records,
      recording the local record, the server record and the time. */
  lemma {:induction false} ConflictBackupsExact(local: seq<Quote>, rs: seq<Quote>, now: int)
    requires UniqueIds(local) && UniqueIds(rs)
    ensures forall b :: b in ConflictBackups(local, rs, now) ==>
      && b.when == now
      && Get(local, b.id()) == Some(b.local)
      && Get(rs, b.id()) == Some(b.server)
      && b.local != b.server
    ensures forall id :: Count(ConflictBackups(local, rs, now), id) == if InConflict(local, rs, id) then 1 else 0
    decreases |rs|
  {
    var cb := ConflictBackups(local, rs, now);
    if |rs| == 0 {
      assert cb == [];
    } else {
      var pre := rs[..|rs| - 1];
      var r := rs[|rs| - 1];
      assert rs == pre + [r];
      UniqueParts(pre, [r]);
      assert Ids([r]) == [r.id];
      assert r.id !in Ids(pre);
      assert Put(pre, r) == rs;
      ConflictBackupsExact(local, pre, now);
      var prev := ConflictBackups(local, pre, now);
      CountConcat(prev, cb[|prev|..]);
      if cb != prev {
        var l := Get(local, r.id).value;
        assert cb == prev + [Backup(l, r, now)];
        CountSingle(Backup(l, r, now));
      } else {
        assert cb[|prev|..] == [];
      }
    }
  }

  /** Nothing is logged when the local map already holds every server record. */
  lemma {:induction false} ConflictBackupsNone(local: seq<Quote>, rs: seq<Quote>, now: int)
    requires forall r :: r in rs ==> Get(local, r.id) == Some(r)
    ensures ConflictBackups(local, rs, now) == []
    decreases |rs|
  {
    if |rs| > 0 {
      ConflictBackupsNone(local, rs[..|rs| - 1], now);
    }
  }

  /** What a sync is, in terms of the two maps it reads: the new local map is
      the old one with every server record set into it, the ledger grows by
      the conflict backups, the server is sent the local-only records, and the
      counters count new ids and conflicts. */
  lemma SyncShape(s: Store, now: int)
    ensures var local, remote, o := ToMap(s.quotes), ToMap(s.remote), SyncNow(s, now);
      var push := Outside(local, Ids(remote));
      && o.store.quotes == PutAll(local, remote)
      && o.store.backups == s.backups + ConflictBackups(local, remote, now)
      && o.added == |Outside(remote, Ids(local))|
      && o.updated == |ConflictBackups(local, remote, now)|
      && o.store.remote == (if |push| > 0 then UpsertMany(s.remote, push) else s.remote)
      && ToMap(o.store.remote) == PutAll(remote, push)
  {
    var local, remote := ToMap(s.quotes), ToMap(s.remote);
    ApplyCounts(local, s.backups, remote, now);
    PushIsLocalOnly(local, remote);
    var push := Outside(local, Ids(remote));
    if |push| > 0 {
      ToMapOfUnique(UpsertMany(s.remote, push));
    }
  }

  /** The entries the merged map holds outside the server's ids are exactly
      the local-only records, in local order. */
  lemma PushIsLocalOnly(local: seq<Quote>, remote: seq<Quote>)
    requires UniqueIds(local) && UniqueIds(remote)
    ensures Outside(PutAll(local, remote), Ids(remote)) == Outside(local, Ids(remote))
  {
    var merged := PutAll(local, remote);
    PutAllKeepsKeys(local, remote);
    PutAllAppendsNew(local, remote);
    TailIsRemote(local, remote, merged[|local|..]);
    LocalOnlyOfMerged(local, Ids(remote), merged);
  }

  lemma LocalOnlyOfMerged(local: seq<Quote>, keys: seq<string>, merged: seq<Quote>)
    requires |local| <= |merged|
    requires forall i :: 0 <= i < |local| ==> merged[i].id == local[i].id
    requires forall i :: 0 <= i < |local| && local[i].id !in keys ==> merged[i] == local[i]
    requires forall i :: 0 <= i < |merged| - |local| ==> merged[|local|..][i].id in keys
    ensures Outside(merged, keys) == Outside(local, keys)
  {
    var head, tail := merged[..|local|], merged[|local|..];
    assert merged == head + tail;
    OutsideConcat(head, tail, keys);
    OutsideNone(tail, keys);
    OutsideAgree(head, local, keys);
  }

  lemma TailIsRemote(local: seq<Quote>, remote: seq<Quote>, tail: seq<Quote>)
    requires UniqueIds(remote)
    requires tail == ToMap(Outside(remote, Ids(local)))
    ensures forall i :: 0 <= i < |tail| ==> tail[i].id in Ids(remote)
  {
    ToMapOfUniqueOutside(remote, Ids(local));
    forall i | 0 <= i < |tail|
      ensures tail[i].id in Ids(remote)
    {
      assert tail[i] in Outside(remote, Ids(local));
      var k :| 0 <= k < |remote| && remote[k] == tail[i];
      InIds(remote, k);
    }
  }

  lemma ToMapOfUniqueOutside(m: seq<Quote>, keys: seq<string>)
    requires UniqueIds(m)
    ensures ToMap(Outside(m, keys)) == Outside(m, keys)
  {
    OutsideGet(m, keys);
    ToMapOfUnique(Outside(m, keys));
  }

  /** Every server id reaches the local list holding exactly the server's
      record; `addedFromServer` counts the server ids that were not local,
      and their records are appended after the old local keys, in server order. */
  lemma SyncRemoteReachesLocal(s: Store, now: int)
    ensures var o := SyncNow(s, now);
      && (forall id :: id in Ids(s.remote) ==> Get(o.store.quotes, id) == Last(s.remote, id))
      && o.added == |Outside(ToMap(s.remote), Ids(s.quotes))|
      && |ToMap(s.quotes)| <= |o.store.quotes|
      && o.store.quotes[|ToMap(s.quotes)|..] == Outside(ToMap(s.remote), Ids(s.quotes))
  {
    var local, remote := ToMap(s.quotes), ToMap(s.remote);
    SyncShape(s, now);
    OutsideSameKeys(remote, Ids(local), Ids(s.quotes));
    PutAllAppendsNew(local, remote);
    ToMapOfUniqueOutside(remote, Ids(local));
  }

  /** Server wins on any field difference, whatever the timestamps say: for
      an id both sides hold with different records, the local list ends up
      with the server record and the ledger gains exactly one backup of the
      overwritten local record, stamped `now`. Identical records log nothing.
      `updatedFromServer` and `conflicts` both count those ids. */
  lemma SyncServerWins(s: Store, now: int)
    ensures var o, local, remote := SyncNow(s, now), ToMap(s.quotes), ToMap(s.remote);
      var logged := ConflictBackups(local, remote, now);
      && o.store.backups == s.backups + logged
      && o.updated == |logged| && o.conflicts == |logged|
      && (forall id :: Count(o.store.backups, id) == Count(s.backups, id) + (if InConflict(local, remote, id) then 1 else 0))
      && (forall b :: b in logged ==>
            && b.when == now && b.local != b.server
            && Last(s.quotes, b.id()) == Some(b.local)
            && Last(s.remote, b.id()) == Some(b.server)
            && Get(o.store.quotes, b.id()) == Some(b.server))
  {
    var local, remote := ToMap(s.quotes), ToMap(s.remote);
    SyncShape(s, now);
    ConflictBackupsExact(local, remote, now);
    CountConcat(s.backups, ConflictBackups(local, remote, now));
  }

  /** Local ids the server does not know keep their record and position in
      the local list, and are pushed: the server is sent exactly the
      local-only records, in local order, and then holds them. */
  lemma SyncKeepsAndPushesLocalOnly(s: Store, now: int)
    ensures var o, local, remote := SyncNow(s, now), ToMap(s.quotes), ToMap(s.remote);
      var push := Outside(local, Ids(s.remote));
      && (forall q :: q in push <==> q in local && q.id !in Ids(s.remote))
      && o.store.remote == (if |push| > 0 then UpsertMany(s.remote, push) else s.remote)
      && |local| <= |o.store.quotes|
      && (forall i :: 0 <= i < |local| ==> o.store.quotes[i].id == local[i].id)
      && (forall i :: 0 <= i < |local| && local[i].id !in Ids(s.remote) ==> o.store.quotes[i] == local[i])
      && (forall id :: id in Ids(s.quotes) && id !in Ids(s.remote) ==>
            Get(o.store.quotes, id) == Last(s.quotes, id) && Get(ToMap(o.store.remote), id) == Last(s.quotes, id))
  {
    var local, remote := ToMap(s.quotes), ToMap(s.remote);
    SyncShape(s, now);
    OutsideSameKeys(local, Ids(remote), Ids(s.remote));
    PutAllKeepsKeys(local, remote);
    var push := Outside(local, Ids(remote));
    OutsideGet(local, Ids(remote));
    LastUnique(push);
  }

  /** After a sync the two sides agree: every id has the same record locally
      and on the server, or is on neither. */
  lemma SyncConverges(s: Store, now: int)
    ensures var o := SyncNow(s, now);
      forall id :: Get(o.store.quotes, id) == Get(ToMap(o.store.remote), id)
  {
    var local, remote := ToMap(s.quotes), ToMap(s.remote);
    SyncShape(s, now);
    var push := Outside(local, Ids(remote));
    OutsideGet(local, Ids(remote));
    LastUnique(push);
    LastUnique(remote);
  }

  /** Syncing again against the server as the first sync left it changes
      nothing: no backups, zero counters, same local list, same server array. */
  lemma SyncIdempotent(s: Store, now: int, later: int)
    ensures var once := SyncNow(s, now);
      var twice := SyncNow(once.store, later);
      && twice.store == once.store
      && twice.added == 0 && twice.updated == 0 && twice.conflicts == 0
  {
    var once := SyncNow(s, now);
    SyncShape(s, now);
    SyncConverges(s, now);
    SyncAgreedIsNoOp(once.store, later);
  }

  /** When the local list is already a map and every id holds the same record
      on both sides, a sync changes nothing and counts nothing. */
  lemma SyncAgreedIsNoOp(s: Store, now: int)
    requires UniqueIds(s.quotes)
    requires forall id :: Get(s.quotes, id) == Get(ToMap(s.remote), id)
    ensures SyncNow(s, now) == SyncOutcome(s, 0, 0, 0)
  {
    var local, remote := ToMap(s.quotes), ToMap(s.remote);
    ToMapOfUnique(s.quotes);
    AgreedMaps(local, remote, now);
    SyncShape(s, now);
  }

  lemma AgreedMaps(local: seq<Quote>, remote: seq<Quote>, now: int)
    requires UniqueIds(local) && UniqueIds(remote)
    requires forall id :: Get(local, id) == Get(remote, id)
    ensures PutAll(local, remote) == local
    ensures ConflictBackups(local, remote, now) == []
    ensures Outside(remote, Ids(local)) == [] && Outside(local, Ids(remote)) == []
  {
    forall r | r in remote
      ensures Get(local, r.id) == Some(r)
    {
      GetIn(remote, r);
    }
    PutAllPresent(local, remote);
    ConflictBackupsNone(local, remote, now);
    forall i | 0 <= i < |remote|
      ensures remote[i].id in Ids(local)
    {
      GetAt(remote, i);
    }
    OutsideNone(remote, Ids(local));
    forall i | 0 <= i < |local|
      ensures local[i].id in Ids(remote)
    {
      GetAt(local, i);
    }
    OutsideNone(local, Ids(remote));
  }

  /** A first sync from an empty local list copies the server map in: every
      server id is added, nothing is logged and nothing is pushed. */
  lemma SyncFromEmptyLocal(remote: seq<Quote>, backups: seq<Backup>, now: int)
    ensures var o := SyncNow(Store([], remote, backups), now);
      && o.store == Store(ToMap(remote), remote, backups)
      && o.added == |ToMap(remote)| && o.updated == 0
  {
    var s := Store([], remote, backups);
    var m := ToMap(remote);
    SyncShape(s, now);
    assert ToMap([]) == [];
    assert PutAll([], m) == m by {
      ToMapOfUnique(m);
    }
    ConflictBackupsEmptyLocal(m, now);
    assert Ids([]) == [];
    OutsideAll(m);
  }

  lemma {:induction false} ConflictBackupsEmptyLocal(rs: seq<Quote>, now: int)
    ensures ConflictBackups([], rs, now) == []
    decreases |rs|
  {
    if |rs| > 0 {
      ConflictBackupsEmptyLocal(rs[..|rs| - 1], now);
    }
  }

  lemma {:induction false} OutsideAll(m: seq<Quote>)
    ensures Outside(m, []) == m
    decreases |m|
  {
    if |m| > 0 {
      OutsideAll(m[..|m| - 1]);
      assert m == m[..|m| - 1] + [m[|m| - 1]];
    }
  }

  /** First run against the freshly seeded server: both demo quotes are
      added, nothing conflicts, and the server array is left as it was. */
  lemma SyncFirstRunAgainstSeed(backups: seq<Backup>, seeded: int, now: int)
    ensures var o := SyncNow(Store([], Seed(seeded), backups), now);
      && o.store.quotes == Seed(seeded) && o.store.remote == Seed(seeded)
      && o.added == 2 && o.updated == 0 && o.conflicts == 0 && o.store.backups == backups
  {
    SyncFromEmptyLocal(Seed(seeded), backups, now);
    ToMapOfUnique(Seed(seeded));
  }
}
